=== FILE: README.md ===
# DockerMAN resource tree, in Dafny

DockerMAN (`dockerman.py`) is a desktop manager for Docker. It shells out to
the `docker` command line and shows containers, images, networks and local
project directories as rows of one tree. This project models its core:

- **The identifier check** (`validate_docker_id`). Every action on a
  container, image or network row, and every Docker row a search shows,
  must pass it. Project rows are not checked: `selected_item` lets them
  through whatever their text, the search shows matching directories as
  they are, and the project actions go through `selected_project`.
- **The line parsers.**
  - Listing lines are split on `|`: containers have six fields, images
    five and networks four.
  - A container is shown as running when its status contains `Up`.
  - An image is shown as `repository:tag`.
  - The stats table is filled from three-field lines. A later line about
    the same container wins. A missing entry falls back to `N/A`.
- **The container size mapping** (`get_container_size`).
- **The tree as an ordered sequence of rows** (the `Inventory.Tree` class),
  with three operations that change it:
  - `list_docker_items` deletes every non-project row and appends the
    parsed rows. It changes nothing when the listing wrote to stderr.
  - `refresh_projects` appends a row for each new project directory. It
    never removes one.
  - `search_items` clears the tree and fills it with the matching rows.
- **The two multi-command actions**, rebuild and copy.

The `docker` runtime is an executor: a function from a command line to its
captured `(stdout, stderr)`. Among the modelled callers, those that check
an answer treat non-empty stderr as failure: the three listings, the
container size query and `get_docker_resource_stats`
(`Listing.ResourceStats`), a helper that nothing in `dockerman.py` calls.
Outside the model, `view_logs`, `inspect_container` and the uncalled
`get_image_size` do the same. The stats fetches inside
`list_docker_items` and `search_items` and the names listing ignore stderr,
and `execute_command` only shows it.

Python's string built-ins are written out:
- `str.strip()` removes the `isspace` characters;
- `str.split(sep)` keeps empty fields;
- `in` is a substring test;
- `str.lower()` is modelled on ASCII.

Behaviour of the code that the model keeps as written:
- The search shows a container's command field as it is. A refresh strips
  its double quotes.
- During a search, a line with more fields than its tuple raises a
  `ValueError` in the worker thread. Later lines and later sections are
  never shown. The model records this as `Scan.raised`.
- `list_docker_items` deletes every row that is not a project, whatever
  kind it lists. So refreshing the images also drops the container and
  network rows, not only the image rows
  (`Inventory.RefreshDropsOtherKinds`).
- `refresh_projects` compares a project name with the text of every row,
  Docker rows included.
- `copy_container` compares the new name, as typed, with the lines of the
  names listing, and does not look at that listing's stderr.
- Rebuild and copy run on whatever `selected_item` returns, which may be a
  project row's name.
- The source checks identifiers with `re.match` and a `$` anchor, which
  also accepts one final newline. The model uses the full-match check
  (`DockerId.ValidDockerId`). Where the check is applied, the two agree:
  tree rows and search fields come from newline-split lines
  (`Inventory.SelectionAgreesWithSource`, `Search.KeptAgreesWithSource`).

Where the model departs from the code: a failed listing hands
`# Error listing <kind>s: <stderr>` to `execute_command`, which runs it
through the shell, so every stderr line after the first is run as a command
(see Findings). That note is modelled as written by
`Runtime.ErrorReportAsWritten`. The tree operations return the corrected
note, `Runtime.ErrorReport`, in which the stderr's newlines are spaces, so
that the shell reads a single comment line.

## Model

| member | source | states |
|---|---|---|
| Text.StripChars | dockerman.py:585 | `strip(chars)` leaves one slice of the input; everything before and after the slice is in the set, the slice's end characters are not, and the result is empty exactly when every character is in the set |
| Text.StripIdempotent | dockerman.py:571 | stripping a second time changes nothing |
| Text.Split | dockerman.py:578 | `split` yields at least one field and no field contains the separator |
| Text.JoinSplit | dockerman.py:578 | joining the fields of a split with the separator gives back the line |
| Text.SplitJoin | dockerman.py:578 | splitting a join of separator-free fields gives back the fields |
| Text.ContainsAt | dockerman.py:713 | `query in line` holds exactly when the query occurs at some position of the line |
| Text.Lower | dockerman.py:693 | lower-casing keeps the length and maps each character by the ASCII case mapping |
| Text.LowerIdempotent | dockerman.py:693 | a lower-cased query has no upper-case letter and lower-casing it again changes nothing |
| DockerId.ValidDockerIdAsWritten | dockerman.py:140-147 | the check as written accepts twelve or more ASCII letters and digits, optionally followed by one newline |
| DockerId.ValidDockerId | dockerman.py:140-147 | an identifier is valid exactly when it is at least twelve ASCII letters or digits |
| DockerId.TwelveAlnumAccepted | dockerman.py:144 | any string of twelve or more ASCII letters and digits, such as `abc123def456`, passes both checks |
| DockerId.ShortIdRejected | dockerman.py:144 | any string shorter than twelve characters, such as `short1`, fails both checks |
| DockerId.HyphenIdRejected | dockerman.py:144 | any string containing a hyphen, such as `abc-123-def4`, fails both checks |
| DockerId.AsWrittenAcceptsTrailingNewline | dockerman.py:144-145 | any valid identifier followed by a newline passes the check as written but not the intended check |
| DockerId.AsWrittenAgreesWithoutNewline | dockerman.py:144-145 | on newline-free strings the check as written and the intended check agree |
| Runtime.Lines | dockerman.py:571 | a listing's lines (stdout stripped, then split on newlines) are never fewer than one and never contain a newline |
| Runtime.ShellLines | dockerman.py:89-95 | the shell that `run_docker_command` starts reads at least one command line, and no line holds a newline |
| Runtime.ErrorReportAsWrittenRunsStderr | dockerman.py:552-554 | as written, every stderr line after the first reaches the shell as a command line of its own |
| Runtime.ErrorReportAsWrittenRunsSecondLine | dockerman.py:552-554 | a two-line stderr gives the shell two lines, the second being the stderr's second line |
| Runtime.ErrorReportAsWrittenExample | dockerman.py:552-554 | as written, the stderr `denied` then `docker rm -f web` gives the shell a second line, `docker rm -f web`, that runs |
| Runtime.ErrorReport | dockerman.py:552-554 | the intended error note is a single shell line, and that line is a comment that runs nothing |
| Runtime.ContainerSize | dockerman.py:667-675 | the size is `N/A` when the query wrote to stderr or answered only blanks, and otherwise the stripped answer; it is never empty |
| Listing.StatsTableKeys | dockerman.py:563-568 | a container has a stats entry exactly when some line has three fields and names it first |
| Listing.StatsTableLastWins | dockerman.py:563-568 | a container's entry is the CPU and memory of the last three-field line naming it |
| Listing.ParseStats | dockerman.py:563-568 | the stats loop builds the table of the stripped, newline-split output |
| Listing.ResourceStats | dockerman.py:821-837 | `get_docker_resource_stats` gives the empty table when the stats command wrote to stderr, and the stats table otherwise |
| Listing.ShortLineNoRow | dockerman.py:578-583 | a line gives a row exactly when it has at least its kind's number of fields; the row is of that kind and its text is the line's identifier field |
| Listing.ContainerLineRow | dockerman.py:578-610 | a container row shows Running exactly when the status contains `Up`, takes CPU and memory from the stats table or `N/A`, and shows the command without double quotes |
| Listing.ContainerRowStatus | dockerman.py:591 | the status column reads Running exactly when the status text contains `Up` |
| Listing.ImageLineRow | dockerman.py:612-635 | an image row's name column is the repository, a colon, then the tag |
| Listing.NetworkLineRow | dockerman.py:637-656 | a network row shows the network's name, driver and scope fields |
| Listing.ListingRowsKind | dockerman.py:575-656 | every row a listing yields is of the listed kind |
| Listing.ListingRowsNoNewline | dockerman.py:571-578 | no row a listing yields has a newline in its identifier |
| Listing.ListingRowsBound | dockerman.py:575-577 | a listing yields at most one row per non-empty line |
| Listing.ListingRowsPresent | dockerman.py:575-656 | a listing's rows are the rows its lines yield one by one, empty lines yielding none |
| Listing.ListingRowsFollowLines | dockerman.py:575-656 | when every non-empty line has enough fields, a listing yields exactly one row per non-empty line, in order |
| Search.SearchRow | dockerman.py:718-729 | a search row is of the searched kind and its text is the line's identifier field |
| Search.SearchScanRaises | dockerman.py:712-718 | a section scan stops on an unpacking error exactly when some matching line has more fields than its kind's tuple |
| Search.KeptAgreesWithSource | dockerman.py:719-720 | on a newline-free listing line, keeping it with the check as written and with the intended check agree |
| Search.SectionReport | dockerman.py:702-703 | a section makes an error note exactly when its listing wrote to stderr, at most once; the note is the corrected one, which runs nothing (the source's note is `Runtime.ErrorReportAsWritten`) |
| Search.SearchReportsRunNothing | dockerman.py:698-787 | a search makes at most three notes and notes a failed container listing; with the corrected note none of them runs a command |
| Search.SearchScanKeeps | dockerman.py:712-729 | a scan that ends without an unpacking error shows exactly one row per kept line, built from that line's fields, in line order |
| Search.KeptLinesMembers | dockerman.py:713-720 | the kept lines are exactly the lines that contain the query, have exactly the tuple's fields and a valid identifier |
| Search.SearchScanVerdicts | dockerman.py:712-729 | the scan of a section is the same as judging each line on its own and acting on the verdicts in line order |
| Search.SearchScanStops | dockerman.py:712-718 | a scan that stops keeps exactly the rows of the lines before the first offending line |
| Search.SearchScanValidIds | dockerman.py:719-720 | every row a search shows carries a valid identifier |
| Search.ProjectMatchesFrom | dockerman.py:789-796 | every project row of a search is a directory whose lower-cased name contains the query |
| Search.ProjectMatchesAll | dockerman.py:789-796 | every directory whose lower-cased name contains the query is shown |
| Inventory.ProjectRowsAreProjects | dockerman.py:556-558 | the rows kept by the clearing loop are all project rows and no more than before |
| Inventory.SelectedItem | dockerman.py:150-165 | a focused row is selected exactly when it is a project or its text passes the identifier check |
| Inventory.SelectionAgreesWithSource | dockerman.py:161 | on a valid tree the check as written and the intended check select the same rows |
| Inventory.RefreshedValid | dockerman.py:550-656 | a refresh keeps project names distinct and Docker identifiers on one line |
| Inventory.RefreshKeepsProjects | dockerman.py:556-558 | a refresh keeps every project row in order, and its Docker rows are exactly those of the new listing |
| Inventory.RefreshDropsOtherKinds | dockerman.py:556-558 | after an image refresh no container row remains |
| Inventory.AddProjectsAppends | dockerman.py:847-863 | `refresh_projects` keeps every row unchanged and only appends project rows of listed directories whose names no earlier row has |
| Inventory.AddProjectsCovers | dockerman.py:847-851 | afterwards every listed directory names some row |
| Inventory.AddProjectsNoop | dockerman.py:851 | when every directory already names a row nothing changes |
| Inventory.AddProjectsIdempotent | dockerman.py:847-863 | running `refresh_projects` twice on the same listing leaves the tree as the first run left it |
| Inventory.AddProjectValid | dockerman.py:851-852 | appending a project whose name no row has keeps the tree valid |
| Inventory.ProjectMatchesDistinct | dockerman.py:789-796 | a search's project rows have distinct names |
| Inventory.SectionRows | dockerman.py:699-787 | a search section shows only Docker rows with identifiers on one line |
| Inventory.SearchResultValid | dockerman.py:698-807 | every search leaves a valid tree |
| Inventory.Tree.ListItems | dockerman.py:546-662 | a failed listing changes nothing and gives the corrected error note; otherwise the tree becomes the old project rows followed by the listing's rows, with no note, and stays valid |
| Inventory.Tree.DeleteDockerRows | dockerman.py:556-558 | the clearing loop leaves exactly the project rows, in order |
| Inventory.Tree.InsertRows | dockerman.py:575-656 | the filling loop appends exactly the listing's rows, in order |
| Inventory.Tree.AppendPresent | dockerman.py:575-656 | the insertion loop appends each row a line yielded, in order, and nothing else |
| Inventory.Tree.Refresh | dockerman.py:1009-1031 | refreshing one kind lists it with its own command and gives that section's corrected error note when the listing failed |
| Inventory.Tree.HasRow | dockerman.py:851 | the membership scan finds a name exactly when some row has it as text |
| Inventory.Tree.RefreshProjects | dockerman.py:839-864 | the tree after `refresh_projects` is the dedup-append of the directory listing, and stays valid |
| Inventory.Tree.SearchSection | dockerman.py:699-787 | a section appends nothing and gives the corrected error note when its listing failed, and otherwise appends the scan of its lines |
| Inventory.Tree.ScanLines | dockerman.py:712-729 | the section loop appends the rows of the scan and reports whether it stopped |
| Inventory.Tree.ActOn | dockerman.py:712-729 | acting on the verdicts appends the shown rows in order and stops at the first unpacking error, keeping the rows before it |
| Inventory.Tree.SearchProjects | dockerman.py:789-807 | the project loop appends the matching directories, in order |
| Inventory.Tree.Search | dockerman.py:689-807 | an empty query changes nothing; otherwise the tree becomes the search result (containers, images, networks, projects, cut at an unpacking error) and stays valid, and the notes are the corrected notes of the failed sections reached |
| Operations.RunAll | dockerman.py:301-302 | every command is run, in order, whatever the earlier ones answered |
| Operations.SelectedId | dockerman.py:150-165 | the identifier handed to an action is the selected row's text, or nothing |
| Operations.Rebuild | dockerman.py:283-293 | rebuild issues commands exactly when something is selected and the image name is not blank; a typed name of only blanks is refused as blank, and no command is issued otherwise |
| Operations.RebuildWorker | dockerman.py:295-302 | the rebuild worker issues `docker stop`, `docker rm` and `docker run -d --name` for the container, in that order |
| Operations.ExistingNames | dockerman.py:522-523 | the names in use are the newline-free lines of the stripped names listing |
| Operations.BackupImage | dockerman.py:536 | the backup image is `backup_` followed by the container identifier |
| Operations.Copy | dockerman.py:510-529 | copy is refused with no command issued when nothing is selected, the name is empty or only blanks, or the new name, as typed, is among the names in use, and otherwise issues the worker's commands |
| Operations.CopyWorker | dockerman.py:531-539 | the copy worker commits the container to its backup image, then creates the new container from that image |

## Left out

- The Tkinter interface: dialogs, message boxes, the output box, row tags and colours, context menus. A cancelled or empty dialog is the empty string.
- Running processes in `run_docker_command` and `is_docker_running`. The executor stands in for them, so the same command always gets the same answer within one model run.
- Threads and `run_with_progress`. The model runs each worker to completion. `refresh_all` starts four refreshes that race; since each refresh deletes every Docker row, the resulting tree depends on their order, which is not modelled.
- The refreshes that rebuild and copy start after their commands, for the same reason.
- The five-second `update_docker_status` poller.
- Filesystem work: project creation, file templates, `rmtree`, `makedirs`, `edit_project_files`. The projects directory is given as a sequence of entries; a missing directory is an empty sequence.
- The single-command actions (start, stop, remove, backup, build, logs, inspect, clean). They are not part of this model.
- Terminal launching, the logo and the animation. These are platform and image-library calls.
- Logging.
- Text.Lower: models `str.lower()` on ASCII letters only; other characters are unchanged.
- Inventory.Tree.Search: requires distinct directory names, as a directory listing has them.
- Runtime.ShellLines: models only how `/bin/sh` cuts a command string at newlines; `Runtime.Runs` only skips blank and `#` comment lines. Quotes that span lines, backslash continuations and the rest of the shell language are not modelled.
- Inventory.Tree.ListItems, Inventory.Tree.SearchSection, Search.SectionReport (and through them Inventory.Tree.Refresh, Inventory.Tree.Search, Search.SearchReports): return the corrected error note `Runtime.ErrorReport`, with the stderr's newlines turned into spaces, not the source's note, which passes the stderr unchanged; the source's note is modelled only by `Runtime.ErrorReportAsWritten` and its lemmas (see Findings).
- Showing the error notes in the output box and handing them to the shell are not modelled: the executor has no effects.

## Findings

| source | as written | input that shows it | evidently intended | confidence | as-written member | corrected member |
|---|---|---|---|---|---|---|
| dockerman.py:144-145 | `re.match` with `^[a-zA-Z0-9]{12,}$`; `$` also matches before a final newline | `"abc123def456\n"` passes the check | the whole string is twelve or more letters and digits (a full match) | not executed | DockerId.AsWrittenAcceptsTrailingNewline | DockerId.ValidDockerId |
| dockerman.py:552-554 | a failed listing passes `# Error listing <kind>s: <stderr>` to `execute_command`, which runs it with `shell=True`; the comment ends at the first newline | a listing whose stderr is `denied`, a newline, then `docker rm -f web`: the shell runs `docker rm -f web` | the error is only shown; the note is one comment line that runs nothing | not executed | Runtime.ErrorReportAsWrittenExample | Runtime.ErrorReport |

=== FILE: docker_id.dfy ===
/**
 * `validate_docker_id`: the check every container, image and network
 * identifier must pass before an action is taken on it or before a search
 * shows it.
 */
module DockerId {

  /** One character of the class `[a-zA-Z0-9]`. */
  predicate IsAlnum(c: char)
  {
    'a' <= c <= 'z' || 'A' <= c <= 'Z' || '0' <= c <= '9'
  }

  /** The length of the longest prefix of `s` made of `[a-zA-Z0-9]`: what the
      greedy `[a-zA-Z0-9]{12,}` consumes. */
  function AlnumRun(s: string): (n: nat)
    ensures n <= |s|
    ensures forall i :: 0 <= i < n ==> IsAlnum(s[i])
    ensures n < |s| ==> !IsAlnum(s[n])
    decreases |s|
  {
    if s != [] && IsAlnum(s[0]) then 1 + AlnumRun(s[1..]) else 0
  }

  /** The identifier check as the source writes it: `re.match` with the
      pattern `^[a-zA-Z0-9]{12,}$`. Python's `$` matches at the end of the
      string and also just before a final newline, so a valid identifier
      followed by one `\n` is accepted. */
  function ValidDockerIdAsWritten(id: string): (b: bool)
    ensures b <==> (|id| >= 12 && forall i :: 0 <= i < |id| ==> IsAlnum(id[i]))
                   || (|id| >= 13 && id[|id| - 1] == '\n'
                       && forall i :: 0 <= i < |id| - 1 ==> IsAlnum(id[i]))
  {
    var n := AlnumRun(id);
    n >= 12 && (n == |id| || (n == |id| - 1 && id[n] == '\n'))
  }

  /** The identifier check as intended: the whole string is at least twelve
      ASCII letters or digits (`re.fullmatch`). */
  function ValidDockerId(id: string): (b: bool)
    ensures b <==> |id| >= 12 && forall i :: 0 <= i < |id| ==> IsAlnum(id[i])
  {
    AlnumRun(id) >= 12 && AlnumRun(id) == |id|
  }

  /** Twelve or more letters and digits pass both checks;
      `abc123def456` is one such identifier. */
  lemma TwelveAlnumAccepted(id: string)
    requires |id| >= 12 && forall i :: 0 <= i < |id| ==> IsAlnum(id[i])
    ensures ValidDockerIdAsWritten(id) && ValidDockerId(id)
  {
  }

  /** Fewer than twelve characters fail both checks, `short1` among them. */
  lemma ShortIdRejected(id: string)
    requires |id| < 12
    ensures !ValidDockerIdAsWritten(id) && !ValidDockerId(id)
  {
  }

  /** A hyphen anywhere fails both checks: it is outside the character
      class and is not a newline. `abc-123-def4` is one such input. */
  lemma HyphenIdRejected(id: string)
    requires '-' in id
    ensures !ValidDockerIdAsWritten(id) && !ValidDockerId(id)
  {
    var j :| 0 <= j < |id| && id[j] == '-';
    assert !IsAlnum(id[j]);
  }

  /** The check as written lets a trailing newline through, the intended
      check does not: `abc123def456` followed by a newline is one such input. */
  lemma AsWrittenAcceptsTrailingNewline(id: string)
    requires ValidDockerId(id)
    ensures ValidDockerIdAsWritten(id + "\n")
    ensures !ValidDockerId(id + "\n")
  {
    var s := id + "\n";
    assert forall i :: 0 <= i < |s| - 1 ==> s[i] == id[i];
    assert !IsAlnum(s[|s| - 1]);
  }

  /** A valid identifier holds no newline. */
  lemma ValidIdOneLine(id: string)
    requires ValidDockerId(id)
    ensures '\n' !in id
  {
    assert !IsAlnum('\n');
  }

  /** On strings without a newline, such as every field of a line split on
      newlines, the two checks agree. */
  lemma AsWrittenAgreesWithoutNewline(id: string)
    requires '\n' !in id
    ensures ValidDockerIdAsWritten(id) == ValidDockerId(id)
  {
    if |id| >= 13 {
      assert id[|id| - 1] in id;
    }
  }
}

=== FILE: inventory.dfy ===
/**
 * The resource tree as a store of rows, and the three operations that
 * change it: `list_docker_items` (a refresh of one Docker kind),
 * `refresh_projects` and `search_items`.
 */
module Inventory {
  import opened Text
  import opened DockerId
  import opened Runtime
  import opened Listing
  import opened Search

  // ---------------------------------------------------------------------
  // Specification functions
  // ---------------------------------------------------------------------

  /** The project rows, in order: what the clearing loop of
      `list_docker_items` leaves. */
  function ProjectRows(rows: seq<Row>): seq<Row>
    decreases |rows|
  {
    if rows == [] then []
    else (if rows[0].kind == Project then [rows[0]] else []) + ProjectRows(rows[1..])
  }

  /** The rows of the Docker kinds, in order. */
  function DockerRows(rows: seq<Row>): seq<Row>
    decreases |rows|
  {
    if rows == [] then []
    else (if rows[0].kind != Project then [rows[0]] else []) + DockerRows(rows[1..])
  }

  /** Some row's text is `name`: the `any(...)` scan of `refresh_projects`. */
  predicate HasText(rows: seq<Row>, name: string)
  {
    exists i :: 0 <= i < |rows| && rows[i].text == name
  }

  /** The tree after `refresh_projects` has gone through `dir` in order,
      appending a project row for each directory whose name is not already
      the text of some row. */
  function AddProjects(rows: seq<Row>, dir: seq<DirEntry>): seq<Row>
    decreases |dir|
  {
    if dir == [] then rows
    else
      var e := dir[0];
      AddProjects(if e.isDir && !HasText(rows, e.name) then rows + [ProjectRow(e.name)] else rows, dir[1..])
  }

  /** No two project rows share a name. */
  predicate ProjectNamesDistinct(rows: seq<Row>)
  {
    forall i, j :: 0 <= i < j < |rows| && rows[i].kind == Project && rows[j].kind == Project ==>
      rows[i].text != rows[j].text
  }

  /** No Docker row's identifier holds a newline (every one is a field of a
      line split on newlines). */
  predicate DockerIdsOnOneLine(rows: seq<Row>)
  {
    forall i :: 0 <= i < |rows| && rows[i].kind != Project ==> '\n' !in rows[i].text
  }

  /** The invariant of the tree. */
  predicate ValidRows(rows: seq<Row>)
  {
    DockerIdsOnOneLine(rows) && ProjectNamesDistinct(rows)
  }

  /** Directory entry names are unique, as `os.listdir` guarantees. */
  predicate NamesDistinct(dir: seq<DirEntry>)
  {
    forall i, j :: 0 <= i < j < |dir| ==> dir[i].name != dir[j].name
  }

  /** The rows a successful refresh of kind `k` leaves: the project rows,
      then the rows of the new listing. */
  function Refreshed(rows: seq<Row>, k: Kind, out: string, exec: Executor): seq<Row>
  {
    ProjectRows(rows) + ListingRows(k, Lines(out), StatsFor(k, exec), exec)
  }

  /** `selected_item`: the focused row's text and kind, unless nothing is
      focused or a Docker row's text fails the identifier check. */
  function SelectedItem(focused: Option<Row>): (sel: Option<(string, Kind)>)
    ensures sel.Some? <==> focused.Some? && (focused.value.kind == Project || ValidDockerId(focused.value.text))
    ensures sel.Some? ==> sel.value.0 == focused.value.text && sel.value.1 == focused.value.kind
  {
    if focused.None? then None
    else if !ValidDockerId(focused.value.text) && focused.value.kind != Project then None
    else Some((focused.value.text, focused.value.kind))
  }

  // ---------------------------------------------------------------------
  // Lemmas
  // ---------------------------------------------------------------------

  lemma {:induction false} ProjectRowsMembers(rows: seq<Row>)
    ensures forall x :: x in ProjectRows(rows) ==> x in rows
    decreases |rows|
  {
    if rows != [] {
      ProjectRowsMembers(rows[1..]);
    }
  }

  /** The clearing loop keeps only project rows, and never more rows than
      there were. */
  lemma {:induction false} ProjectRowsAreProjects(rows: seq<Row>)
    ensures |ProjectRows(rows)| <= |rows|
    ensures forall i :: 0 <= i < |ProjectRows(rows)| ==> ProjectRows(rows)[i].kind == Project
    decreases |rows|
  {
    if rows != [] {
      ProjectRowsAreProjects(rows[1..]);
    }
  }

  lemma {:induction false} ProjectRowsAppend(a: seq<Row>, b: seq<Row>)
    ensures ProjectRows(a + b) == ProjectRows(a) + ProjectRows(b)
    decreases |a|
  {
    if a != [] {
      ProjectRowsAppend(a[1..], b);
      assert (a + b)[1..] == a[1..] + b;
    } else {
      assert a + b == b;
    }
  }

  /** Looking at one more row of the tree. */
  lemma ProjectRowsStep(rows: seq<Row>, i: nat)
    requires i < |rows|
    ensures ProjectRows(rows[..i + 1])
            == ProjectRows(rows[..i]) + (if rows[i].kind == Project then [rows[i]] else [])
  {
    assert rows[..i + 1] == rows[..i] + [rows[i]];
    ProjectRowsAppend(rows[..i], [rows[i]]);
  }

  /** Deleting the row at position `|before|`. */
  lemma RemoveAt(rows: seq<Row>, before: seq<Row>, x: Row, after: seq<Row>)
    requires rows == before + [x] + after
    ensures rows[..|before|] + rows[|before| + 1..] == before + after
  {
    assert rows[..|before|] == before;
    assert rows[|before| + 1..] == after;
  }

  /** One turn of the clearing loop: the row at `pos` is `children[i]`;
      deleting it when it is not a project, or stepping over it when it is,
      restores the loop's invariant for `i + 1`. */
  lemma DeleteStep(rows: seq<Row>, children: seq<Row>, i: nat, pos: nat)
    requires i < |children|
    requires pos == |ProjectRows(children[..i])|
    requires rows == ProjectRows(children[..i]) + children[i..]
    ensures pos < |rows| && rows[pos] == children[i]
    ensures children[i].kind != Project ==>
              pos == |ProjectRows(children[..i + 1])|
              && rows[..pos] + rows[pos + 1..] == ProjectRows(children[..i + 1]) + children[i + 1..]
    ensures children[i].kind == Project ==>
              pos + 1 == |ProjectRows(children[..i + 1])|
              && rows == ProjectRows(children[..i + 1]) + children[i + 1..]
  {
    ProjectRowsStep(children, i);
    var kept := ProjectRows(children[..i]);
    assert children[i..] == [children[i]] + children[i + 1..];
    if children[i].kind != Project {
      RemoveAt(rows, kept, children[i], children[i + 1..]);
    } else {
      assert rows == (kept + [children[i]]) + children[i + 1..];
    }
  }

  lemma {:induction false} DockerRowsAppend(a: seq<Row>, b: seq<Row>)
    ensures DockerRows(a + b) == DockerRows(a) + DockerRows(b)
    decreases |a|
  {
    if a != [] {
      DockerRowsAppend(a[1..], b);
      assert (a + b)[1..] == a[1..] + b;
    } else {
      assert a + b == b;
    }
  }

  lemma {:induction false} ProjectRowsOfProjects(rows: seq<Row>)
    requires forall i :: 0 <= i < |rows| ==> rows[i].kind == Project
    ensures ProjectRows(rows) == rows && DockerRows(rows) == []
    decreases |rows|
  {
    if rows != [] {
      ProjectRowsOfProjects(rows[1..]);
    }
  }

  lemma {:induction false} ProjectRowsOfDocker(rows: seq<Row>)
    requires forall i :: 0 <= i < |rows| ==> rows[i].kind != Project
    ensures ProjectRows(rows) == [] && DockerRows(rows) == rows
    decreases |rows|
  {
    if rows != [] {
      ProjectRowsOfDocker(rows[1..]);
    }
  }

  /** Filtering keeps project names distinct. */
  lemma {:induction false} ProjectRowsDistinct(rows: seq<Row>)
    requires ProjectNamesDistinct(rows)
    ensures ProjectNamesDistinct(ProjectRows(rows))
    decreases |rows|
  {
    if rows != [] {
      var t := rows[1..];
      assert ProjectNamesDistinct(t) by {
        forall i, j | 0 <= i < j < |t| && t[i].kind == Project && t[j].kind == Project
          ensures t[i].text != t[j].text
        {
          assert rows[i + 1] == t[i] && rows[j + 1] == t[j];
        }
      }
      ProjectRowsDistinct(t);
      ProjectRowsMembers(t);
      var pt := ProjectRows(t);
      if rows[0].kind == Project {
        var r := [rows[0]] + pt;
        assert ProjectRows(rows) == r;
        forall i, j | 0 <= i < j < |r| && r[i].kind == Project && r[j].kind == Project
          ensures r[i].text != r[j].text
        {
          if i == 0 {
            assert r[j] == pt[j - 1] && r[j] in t;
            var m :| 0 <= m < |t| && t[m] == r[j];
            assert rows[m + 1] == r[j];
          } else {
            assert r[i] == pt[i - 1] && r[j] == pt[j - 1];
          }
        }
      }
    }
  }

  /** Distinct project rows followed by Docker rows whose identifiers
      hold no newline make a valid tree. */
  lemma ConcatValid(p: seq<Row>, l: seq<Row>)
    requires forall i :: 0 <= i < |p| ==> p[i].kind == Project
    requires ProjectNamesDistinct(p)
    requires forall i :: 0 <= i < |l| ==> l[i].kind != Project && '\n' !in l[i].text
    ensures ValidRows(p + l)
  {
    var r := p + l;
    forall i, j | 0 <= i < j < |r| && r[i].kind == Project && r[j].kind == Project
      ensures r[i].text != r[j].text
    {
      assert r[i] == p[i] && r[j] == p[j];
    }
    forall i | 0 <= i < |r| && r[i].kind != Project
      ensures '\n' !in r[i].text
    {
      assert r[i] == l[i - |p|];
    }
  }

  /** Docker rows whose identifiers hold no newline followed by distinct
      project rows make a valid tree. */
  lemma DockerThenProjectsValid(d: seq<Row>, p: seq<Row>)
    requires forall i :: 0 <= i < |d| ==> d[i].kind != Project && '\n' !in d[i].text
    requires forall i :: 0 <= i < |p| ==> p[i].kind == Project
    requires ProjectNamesDistinct(p)
    ensures ValidRows(d + p)
  {
    var r := d + p;
    forall i, j | 0 <= i < j < |r| && r[i].kind == Project && r[j].kind == Project
      ensures r[i].text != r[j].text
    {
      assert r[i] == p[i - |d|] && r[j] == p[j - |d|];
    }
    forall i | 0 <= i < |r| && r[i].kind != Project
      ensures '\n' !in r[i].text
    {
      assert r[i] == d[i];
    }
  }

  /** A successful refresh leaves the tree valid. */
  lemma RefreshedValid(rows: seq<Row>, k: Kind, out: string, exec: Executor)
    requires ValidRows(rows)
    ensures ValidRows(Refreshed(rows, k, out, exec))
  {
    var lines := Lines(out);
    var stats := StatsFor(k, exec);
    ListingRowsKind(k, lines, stats, exec);
    ListingRowsNoNewline(k, lines, stats, exec);
    ProjectRowsDistinct(rows);
    ProjectRowsAreProjects(rows);
    if k == Project {
      assert ListingRows(k, lines, stats, exec) == [];
    }
    ConcatValid(ProjectRows(rows), ListingRows(k, lines, stats, exec));
  }

  /** A successful refresh keeps every project row, in the same order, and
      no other row from before: the Docker rows are exactly those of the
      new listing. */
  lemma RefreshKeepsProjects(rows: seq<Row>, k: Kind, out: string, exec: Executor)
    ensures ProjectRows(Refreshed(rows, k, out, exec)) == ProjectRows(rows)
    ensures DockerRows(Refreshed(rows, k, out, exec)) == ListingRows(k, Lines(out), StatsFor(k, exec), exec)
  {
    var p := ProjectRows(rows);
    var l := ListingRows(k, Lines(out), StatsFor(k, exec), exec);
    ListingRowsKind(k, Lines(out), StatsFor(k, exec), exec);
    ProjectRowsAppend(p, l);
    DockerRowsAppend(p, l);
    ProjectRowsAreProjects(rows);
    ProjectRowsOfProjects(p);
    if k == Project {
      assert l == [];
    } else {
      ProjectRowsOfDocker(l);
    }
  }

  /** A refresh of one Docker kind also drops the rows of the other Docker
      kinds: refreshing the images removes every container row. */
  lemma RefreshDropsOtherKinds(rows: seq<Row>, out: string, exec: Executor)
    ensures forall i :: 0 <= i < |Refreshed(rows, Image, out, exec)| ==>
              Refreshed(rows, Image, out, exec)[i].kind != Container
  {
    var p: seq<Row> := ProjectRows(rows);
    var l: seq<Row> := ListingRows(Image, Lines(out), StatsFor(Image, exec), exec);
    ProjectRowsAreProjects(rows);
    ListingRowsKind(Image, Lines(out), StatsFor(Image, exec), exec);
    forall i | 0 <= i < |p + l| ensures (p + l)[i].kind != Container {
      if i < |p| {
        assert (p + l)[i] == p[i];
      } else {
        assert (p + l)[i] == l[i - |p|];
      }
    }
  }

  /** `refresh_projects` never removes or changes a row; every row it
      appends is a project row for a directory of the listing, whose name
      differs from the text of every row before it. */
  lemma {:induction false} AddProjectsAppends(rows: seq<Row>, dir: seq<DirEntry>)
    ensures |rows| <= |AddProjects(rows, dir)| && AddProjects(rows, dir)[..|rows|] == rows
    ensures forall i :: |rows| <= i < |AddProjects(rows, dir)| ==>
              AddProjects(rows, dir)[i] == ProjectRow(AddProjects(rows, dir)[i].text)
              && (exists j :: 0 <= j < |dir| && dir[j].isDir && dir[j].name == AddProjects(rows, dir)[i].text)
              && !HasText(AddProjects(rows, dir)[..i], AddProjects(rows, dir)[i].text)
    decreases |dir|
  {
    if dir != [] {
      var e := dir[0];
      var next := if e.isDir && !HasText(rows, e.name) then rows + [ProjectRow(e.name)] else rows;
      AddProjectsAppends(next, dir[1..]);
      var r := AddProjects(rows, dir);
      assert r == AddProjects(next, dir[1..]);
      assert r[..|next|] == next;
      assert r[..|rows|] == next[..|rows|] == rows;
      forall i | |rows| <= i < |r|
        ensures r[i] == ProjectRow(r[i].text)
        ensures exists j :: 0 <= j < |dir| && dir[j].isDir && dir[j].name == r[i].text
        ensures !HasText(r[..i], r[i].text)
      {
        if i < |next| {
          assert i == |rows| && r[i] == ProjectRow(e.name);
          assert r[..i] == rows;
          assert dir[0].isDir && dir[0].name == r[i].text;
        } else {
          var j :| 0 <= j < |dir| - 1 && dir[1..][j].isDir && dir[1..][j].name == r[i].text;
          assert dir[j + 1] == dir[1..][j];
        }
      }
    }
  }

  /** After `refresh_projects`, every directory of the listing is the text
      of some row. */
  lemma {:induction false} AddProjectsCovers(rows: seq<Row>, dir: seq<DirEntry>, j: nat)
    requires j < |dir| && dir[j].isDir
    ensures HasText(AddProjects(rows, dir), dir[j].name)
    decreases |dir|
  {
    var e := dir[0];
    var next := if e.isDir && !HasText(rows, e.name) then rows + [ProjectRow(e.name)] else rows;
    assert AddProjects(rows, dir) == AddProjects(next, dir[1..]);
    if j == 0 {
      AddProjectsAppends(next, dir[1..]);
      var r := AddProjects(next, dir[1..]);
      var m: nat;
      if HasText(rows, e.name) {
        m :| m < |rows| && rows[m].text == e.name;
      } else {
        m := |rows|;
      }
      assert next[m].text == e.name;
      assert r[m] == r[..|next|][m] == next[m];
    } else {
      assert dir[1..][j - 1] == dir[j];
      AddProjectsCovers(next, dir[1..], j - 1);
    }
  }

  /** When every directory of the listing already names a row,
      `refresh_projects` changes nothing. */
  lemma {:induction false} AddProjectsNoop(rows: seq<Row>, dir: seq<DirEntry>)
    requires forall j :: 0 <= j < |dir| && dir[j].isDir ==> HasText(rows, dir[j].name)
    ensures AddProjects(rows, dir) == rows
    decreases |dir|
  {
    if dir != [] {
      assert forall j :: 0 <= j < |dir| - 1 ==> dir[1..][j] == dir[j + 1];
      AddProjectsNoop(rows, dir[1..]);
    }
  }

  /** Running `refresh_projects` twice on the same listing leaves the tree
      as the first run left it. */
  lemma AddProjectsIdempotent(rows: seq<Row>, dir: seq<DirEntry>)
    ensures AddProjects(AddProjects(rows, dir), dir) == AddProjects(rows, dir)
  {
    forall j | 0 <= j < |dir| && dir[j].isDir
      ensures HasText(AddProjects(rows, dir), dir[j].name)
    {
      AddProjectsCovers(rows, dir, j);
    }
    AddProjectsNoop(AddProjects(rows, dir), dir);
  }

  /** Appending the row of a project whose name no row has keeps the tree
      valid. */
  lemma AddProjectValid(rows: seq<Row>, name: string)
    requires ValidRows(rows) && !HasText(rows, name)
    ensures ValidRows(rows + [ProjectRow(name)])
  {
    var r := rows + [ProjectRow(name)];
    forall i, j | 0 <= i < j < |r| && r[i].kind == Project && r[j].kind == Project
      ensures r[i].text != r[j].text
    {
      if j == |rows| {
        assert r[i] == rows[i];
      }
    }
  }

  /** The project rows of a search are distinct when the directory names
      are. */
  lemma {:induction false} ProjectMatchesDistinct(query: string, dir: seq<DirEntry>)
    requires NamesDistinct(dir)
    ensures ProjectNamesDistinct(ProjectMatches(query, dir))
    decreases |dir|
  {
    if dir != [] {
      var rest := ProjectMatches(query, dir[1..]);
      assert NamesDistinct(dir[1..]) by {
        forall i, j | 0 <= i < j < |dir| - 1 ensures dir[1..][i].name != dir[1..][j].name {
          assert dir[1..][i] == dir[i + 1] && dir[1..][j] == dir[j + 1];
        }
      }
      ProjectMatchesDistinct(query, dir[1..]);
      if ProjectMatch(query, dir[0]) {
        var r := [ProjectRow(dir[0].name)] + rest;
        assert ProjectMatches(query, dir) == r;
        forall i, j | 0 <= i < j < |r| && r[i].kind == Project && r[j].kind == Project
          ensures r[i].text != r[j].text
        {
          if i == 0 {
            ProjectMatchesFrom(query, dir[1..], j - 1);
            var m :| 0 <= m < |dir| - 1 && ProjectMatch(query, dir[1..][m]) && rest[j - 1] == ProjectRow(dir[1..][m].name);
            assert dir[1..][m] == dir[m + 1];
          } else {
            assert r[i] == rest[i - 1] && r[j] == rest[j - 1];
          }
        }
      }
    }
  }

  /** Docker rows only, none with a newline in its identifier. */
  predicate DockerOnly(rows: seq<Row>)
  {
    forall i :: 0 <= i < |rows| ==> rows[i].kind != Project && '\n' !in rows[i].text
  }

  lemma DockerOnlyAppend(a: seq<Row>, b: seq<Row>)
    requires DockerOnly(a) && DockerOnly(b)
    ensures DockerOnly(a + b)
  {
    forall i | 0 <= i < |a + b| ensures (a + b)[i].kind != Project && '\n' !in (a + b)[i].text {
      if i < |a| {
        assert (a + b)[i] == a[i];
      } else {
        assert (a + b)[i] == b[i - |a|];
      }
    }
  }

  /** Every row of a search section is of the section's kind and carries
      a valid identifier, which holds no newline. */
  lemma SectionRows(k: Kind, query: string, exec: Executor)
    requires k != Project
    ensures DockerOnly(Section(k, query, exec).rows)
  {
    var o := exec(ListCommand(k));
    if !Failed(o) {
      SearchScanValidIds(k, query, Lines(o.stdout), StatsFor(k, exec), exec);
    }
    var r := Section(k, query, exec).rows;
    forall i | 0 <= i < |r| ensures r[i].kind != Project && '\n' !in r[i].text {
      ValidIdOneLine(r[i].text);
    }
  }

  /** The project section yields project rows only. */
  lemma ProjectMatchesAreProjects(query: string, dir: seq<DirEntry>)
    ensures forall i :: 0 <= i < |ProjectMatches(query, dir)| ==> ProjectMatches(query, dir)[i].kind == Project
  {
    forall i | 0 <= i < |ProjectMatches(query, dir)| ensures ProjectMatches(query, dir)[i].kind == Project {
      ProjectMatchesFrom(query, dir, i);
    }
  }

  /** Every row of a search is valid: Docker rows carry valid identifiers,
      and project rows come from distinct directory names. */
  lemma SearchResultValid(query: string, exec: Executor, dir: seq<DirEntry>)
    requires NamesDistinct(dir)
    ensures ValidRows(SearchResult(query, exec, dir).rows)
  {
    var c := Section(Container, query, exec);
    var im := Section(Image, query, exec);
    var n := Section(Network, query, exec);
    SectionRows(Container, query, exec);
    SectionRows(Image, query, exec);
    SectionRows(Network, query, exec);
    DockerOnlyAppend(c.rows, im.rows);
    DockerOnlyAppend(c.rows + im.rows, n.rows);
    var d := c.rows + im.rows + n.rows;
    var r := SearchResult(query, exec, dir).rows;
    if c.raised {
      assert r == c.rows;
      ConcatValid([], r);
    } else if im.raised {
      assert r == c.rows + im.rows;
      ConcatValid([], r);
    } else if n.raised {
      assert r == d;
      ConcatValid([], r);
    } else {
      var pm := ProjectMatches(query, dir);
      assert r == d + pm;
      ProjectMatchesDistinct(query, dir);
      ProjectMatchesAreProjects(query, dir);
      DockerThenProjectsValid(d, pm);
    }
  }

  /** The model's identifier check and the source's (which lets a final
      newline through) select the same rows of a valid tree. */
  lemma SelectionAgreesWithSource(rows: seq<Row>, i: nat)
    requires ValidRows(rows) && i < |rows|
    ensures (rows[i].kind == Project || ValidDockerId(rows[i].text))
            == (rows[i].kind == Project || ValidDockerIdAsWritten(rows[i].text))
  {
    if rows[i].kind != Project {
      AsWrittenAgreesWithoutNewline(rows[i].text);
    }
  }

  // ---------------------------------------------------------------------
  // The tree
  // ---------------------------------------------------------------------

  /** The Treeview as the ordered sequence of its top-level rows. */
  class Tree {
    var rows: seq<Row>

    ghost predicate Valid()
      reads this
    {
      ValidRows(rows)
    }

    constructor ()
      ensures Valid() && rows == []
    {
      rows := [];
    }

    /** `list_docker_items`: when the listing command wrote to stderr,
        nothing changes; otherwise every Docker row is deleted and the rows
        of the new listing are appended after the project rows. */
    method ListItems(command: string, k: Kind, exec: Executor) returns (ok: bool, notes: seq<string>)
      requires Valid()
      modifies this
      ensures Valid()
      ensures ok <==> !Failed(exec(command))
      ensures notes == if ok then [] else [ErrorReport(KindName(k), exec(command).stderr)]
      ensures !ok ==> rows == old(rows)
      ensures ok ==> rows == Refreshed(old(rows), k, exec(command).stdout, exec)
    {
      var o := exec(command);
      if Failed(o) {
        return false, [ErrorReport(KindName(k), o.stderr)];
      }
      ok, notes := true, [];
      RefreshedValid(rows, k, o.stdout, exec);
      ghost var kept := ProjectRows(rows);
      DeleteDockerRows();
      assert rows == kept;
      var stats: Stats := map[];
      if k == Container {
        stats := ParseStats(exec(StatsCommand).stdout);
      }
      assert stats == StatsFor(k, exec);
      var lines := Lines(o.stdout);
      ghost var listed := ListingRows(k, lines, stats, exec);
      assert Refreshed(old(rows), k, o.stdout, exec) == kept + listed;
      if |lines| == 1 && lines[0] == "" {
        ListingRowsBlank(k, lines, stats, exec);
        assert kept + listed == kept;
        return;
      }
      InsertRows(k, lines, stats, exec);
    }

    /** The clearing loop of `list_docker_items`: deletes every row whose
        kind is not a project, keeping the project rows in order. */
    method DeleteDockerRows()
      modifies this
      ensures rows == ProjectRows(old(rows))
    {
      var children := rows;
      var pos := 0;  // where `children[i]` now sits in `rows`
      var i := 0;
      while i < |children|
        invariant 0 <= i <= |children|
        invariant pos == |ProjectRows(children[..i])|
        invariant rows == ProjectRows(children[..i]) + children[i..]
      {
        DeleteStep(rows, children, i, pos);
        if children[i].kind != Project {
          rows := rows[..pos] + rows[pos + 1..];
        } else {
          pos := pos + 1;
        }
        i := i + 1;
      }
      assert children[..i] == children;
    }

    /** The filling loop of `list_docker_items`: appends one row for each
        non-empty line with enough fields, in the order of the lines. */
    method InsertRows(k: Kind, lines: seq<string>, stats: Stats, exec: Executor)
      modifies this
      ensures rows == old(rows) + ListingRows(k, lines, stats, exec)
    {
      var parsed := LineRows(k, lines, stats, exec);
      ListingRowsPresent(k, lines, stats, exec);
      AppendPresent(parsed);
    }

    /** The insertion loop: each parsed line that gave a row is appended. */
    method AppendPresent(opts: seq<Option<Row>>)
      modifies this
      ensures rows == old(rows) + Present(opts)
    {
      var j := 0;
      while j < |opts|
        invariant 0 <= j <= |opts|
        invariant rows == old(rows) + Present(opts[..j])
      {
        assert opts[..j + 1] == opts[..j] + [opts[j]];
        PresentSnoc(opts[..j], opts[j]);
        if opts[j].Some? {
          rows := rows + [opts[j].value];
        }
        j := j + 1;
      }
      assert opts[..j] == opts;
    }

    /** `refresh_containers`, `refresh_images` and `refresh_networks`. */
    method Refresh(k: Kind, exec: Executor) returns (ok: bool, notes: seq<string>)
      requires Valid() && k != Project
      modifies this
      ensures Valid()
      ensures notes == SectionReport(k, exec)
      ensures !ok ==> rows == old(rows)
      ensures ok ==> rows == Refreshed(old(rows), k, exec(ListCommand(k)).stdout, exec)
    {
      ok, notes := ListItems(ListCommand(k), k, exec);
    }

    /** The `any(...)` scan: whether some row's text is `name`. */
    method HasRow(name: string) returns (found: bool)
      ensures found <==> HasText(rows, name)
    {
      found := false;
      var j := 0;
      while j < |rows| && !found
        invariant 0 <= j <= |rows|
        invariant found ==> HasText(rows, name)
        invariant !found ==> forall m :: 0 <= m < j ==> rows[m].text != name
      {
        found := rows[j].text == name;
        j := j + 1;
      }
    }

    /** `refresh_projects`: goes through the projects directory and appends
        a project row for each directory whose name is not yet the text of
        a row. */
    method RefreshProjects(dir: seq<DirEntry>)
      requires Valid()
      modifies this
      ensures Valid()
      ensures rows == AddProjects(old(rows), dir)
    {
      var i := 0;
      while i < |dir|
        invariant 0 <= i <= |dir|
        invariant Valid()
        invariant AddProjects(rows, dir[i..]) == AddProjects(old(rows), dir)
      {
        assert dir[i..][0] == dir[i] && dir[i..][1..] == dir[i + 1..];
        var e := dir[i];
        if e.isDir {
          var present := HasRow(e.name);
          if !present {
            AddProjectValid(rows, e.name);
            rows := rows + [ProjectRow(e.name)];
          }
        }
        i := i + 1;
      }
    }

    /** One section of `search_items`: lists one Docker kind and appends
        the rows of the lines the search keeps, stopping at a line that
        cannot be unpacked. */
    method SearchSection(k: Kind, query: string, exec: Executor) returns (raised: bool, notes: seq<string>)
      requires k != Project
      modifies this
      ensures notes == SectionReport(k, exec)
      ensures rows == old(rows) + Section(k, query, exec).rows
      ensures raised == Section(k, query, exec).raised
    {
      var o := exec(ListCommand(k));
      if Failed(o) {
        return false, [ErrorReport(KindName(k), o.stderr)];
      }
      notes := [];
      var stats: Stats := map[];
      if k == Container {
        stats := ParseStats(exec(StatsCommand).stdout);
      }
      raised := ScanLines(k, query, Lines(o.stdout), stats, exec);
    }

    /** One search section over the lines of its listing: each line is
        judged on its own, and the verdicts are acted on in line order. */
    method ScanLines(k: Kind, query: string, lines: seq<string>, stats: Stats, exec: Executor) returns (raised: bool)
      requires k != Project
      modifies this
      ensures rows == old(rows) + SearchScan(k, query, lines, stats, exec).rows
      ensures raised == SearchScan(k, query, lines, stats, exec).raised
    {
      var verdicts := Verdicts(k, query, lines, stats, exec);
      SearchScanVerdicts(k, query, lines, stats, exec);
      raised := ActOn(verdicts);
    }

    /** The loop of a search section: a shown line is appended, and an
        unpacking error ends the loop with the rows so far kept. */
    method ActOn(verdicts: seq<Verdict>) returns (raised: bool)
      modifies this
      ensures rows == old(rows) + ScanFrom(verdicts).rows
      ensures raised == ScanFrom(verdicts).raised
    {
      raised := false;
      var i := 0;
      while i < |verdicts| && !raised
        invariant 0 <= i <= |verdicts|
        invariant rows == old(rows) + ScanFrom(verdicts[..i]).rows
        invariant raised == ScanFrom(verdicts[..i]).raised
      {
        assert verdicts[..i + 1] == verdicts[..i] + [verdicts[i]];
        ScanFromSnoc(verdicts[..i], verdicts[i]);
        match verdicts[i] {
          case Stop => raised := true;
          case Show(row) => rows := rows + [row];
          case Skip =>
        }
        i := i + 1;
      }
      if raised {
        ScanFromStopped(verdicts[..i], verdicts[i..]);
        assert verdicts[..i] + verdicts[i..] == verdicts;
      } else {
        assert verdicts[..i] == verdicts;
      }
    }

    /** The project section of `search_items`. */
    method SearchProjects(query: string, dir: seq<DirEntry>)
      modifies this
      ensures rows == old(rows) + ProjectMatches(query, dir)
    {
      var i := 0;
      while i < |dir|
        invariant 0 <= i <= |dir|
        invariant rows + ProjectMatches(query, dir[i..]) == old(rows) + ProjectMatches(query, dir)
      {
        assert dir[i..][0] == dir[i] && dir[i..][1..] == dir[i + 1..];
        var e := dir[i];
        if Contains(Lower(e.name), query) && e.isDir {
          rows := rows + [ProjectRow(e.name)];
        }
        i := i + 1;
      }
    }

    /** `search_items`: with an empty query nothing happens; otherwise the
        tree is cleared and filled with the matching containers, images,
        networks and projects, unless an unpacking error ends the search. */
    method Search(query: string, exec: Executor, dir: seq<DirEntry>) returns (raised: bool, notes: seq<string>)
      requires Valid() && NamesDistinct(dir)
      modifies this
      ensures Valid()
      ensures Lower(query) == "" ==> rows == old(rows) && !raised && notes == []
      ensures Lower(query) != "" ==> notes == SearchReports(Lower(query), exec)
      ensures Lower(query) != "" ==>
                rows == SearchResult(Lower(query), exec, dir).rows
                && raised == SearchResult(Lower(query), exec, dir).raised
    {
      var q := Lower(query);
      if q == "" {
        return false, [];
      }
      SearchResultValid(q, exec, dir);
      ghost var c := Section(Container, q, exec);
      ghost var im := Section(Image, q, exec);
      ghost var n := Section(Network, q, exec);
      ghost var cn := SectionReport(Container, exec);
      ghost var imn := SectionReport(Image, exec);
      ghost var nn := SectionReport(Network, exec);
      ghost var all := SearchReports(q, exec);
      assert all == cn + if c.raised then [] else imn + if im.raised then [] else nn;
      rows := [];
      var more: seq<string>;
      raised, notes := SearchSection(Container, q, exec);
      assert rows == c.rows && notes == cn;
      if !raised {
        raised, more := SearchSection(Image, q, exec);
        notes := notes + more;
        assert rows == c.rows + im.rows && notes == cn + imn;
        if !raised {
          raised, more := SearchSection(Network, q, exec);
          notes := notes + more;
          assert notes == cn + (imn + nn);
          if !raised {
            SearchProjects(q, dir);
          }
        }
      }
    }
  }
}

=== FILE: listing.dfy ===
/**
 * The rows of the resource tree and how `list_docker_items` builds them
 * from Docker's `|`-delimited listings: the stats table, one parser per
 * resource kind, and the rows a whole listing yields.
 */
module Listing {
  import opened Text
  import opened Runtime

  datatype Option<T> = None | Some(value: T)

  /** The four kinds of row the tree holds. */
  datatype Kind = Container | Image | Network | Project

  /** The type name stored as the first value of a row (`values[0]`). */
  function KindName(k: Kind): (name: string)
    ensures '\n' !in name
  {
    match k
    case Container => "container"
    case Image => "image"
    case Network => "network"
    case Project => "project"
  }

  /** One tree row: its `text` (a Docker identifier, or a project name),
      its kind (`values[0]`) and the remaining columns (`values[1..]`). */
  datatype Row = Row(text: string, kind: Kind, columns: seq<string>)

  /** The CPU and memory usage the stats listing reports for a container. */
  datatype Usage = Usage(cpu: string, mem: string)

  /** Container identifier to usage, the `stats` dictionary. */
  type Stats = map<string, Usage>

  /** The fallback `("N/A", "N/A")` for a container the stats listing omits. */
  const NoUsage: Usage := Usage(NotAvailable, NotAvailable)

  /** Number of `|`-fields the listing template of a Docker kind produces. */
  function Arity(k: Kind): nat
  {
    match k
    case Container => 6
    case Image => 5
    case Network => 4
    case Project => 0
  }

  /** The listing command `refresh_containers`, `refresh_images` and
      `refresh_networks` pass on, which `search_items` issues too. */
  function ListCommand(k: Kind): string
    requires k != Project
  {
    match k
    case Container => ContainersCommand
    case Image => ImagesCommand
    case Network => NetworksCommand
  }

  /** One entry of the projects directory: its name and whether it is a
      directory (`os.listdir` and `os.path.isdir`). */
  datatype DirEntry = DirEntry(name: string, isDir: bool)

  /** Which field holds the identifier that becomes the row's text. */
  function IdField(k: Kind): nat
  {
    if k == Image then 2 else 0
  }

  // ---------------------------------------------------------------------
  // The stats table
  // ---------------------------------------------------------------------

  /** A stats line is kept only when it has exactly three fields. */
  predicate IsStatsLine(line: string)
  {
    |Split(line, '|')| == 3
  }

  /** A kept stats line about container `id`. */
  predicate StatsLineFor(line: string, id: string)
  {
    IsStatsLine(line) && Split(line, '|')[0] == id
  }

  function StatsUsage(line: string): Usage
    requires IsStatsLine(line)
  {
    var parts := Split(line, '|');
    Usage(parts[1], parts[2])
  }

  /** The dictionary the stats loop leaves behind after reading `lines` in
      order, each kept line overwriting any earlier entry for its container. */
  function StatsTable(lines: seq<string>): Stats
    decreases |lines|
  {
    if lines == [] then map[]
    else
      var table := StatsTable(lines[..|lines| - 1]);
      var last := lines[|lines| - 1];
      if IsStatsLine(last) then table[Split(last, '|')[0] := StatsUsage(last)] else table
  }

  /** Line `i` is the last kept stats line about `id`. */
  predicate LastStatsLine(lines: seq<string>, id: string, i: int)
  {
    0 <= i < |lines| && StatsLineFor(lines[i], id)
    && forall j :: i < j < |lines| ==> !StatsLineFor(lines[j], id)
  }

  /** A container has an entry exactly when some three-field line names it. */
  lemma {:induction false} StatsTableKeys(lines: seq<string>, id: string)
    ensures id in StatsTable(lines) <==> exists i :: 0 <= i < |lines| && StatsLineFor(lines[i], id)
    decreases |lines|
  {
    if lines != [] {
      var n := |lines| - 1;
      var init := lines[..n];
      StatsTableKeys(init, id);
      var t := StatsTable(init);
      assert StatsTable(lines) == if IsStatsLine(lines[n]) then t[Split(lines[n], '|')[0] := StatsUsage(lines[n])] else t;
      if exists i :: 0 <= i < |lines| && StatsLineFor(lines[i], id) {
        var i :| 0 <= i < |lines| && StatsLineFor(lines[i], id);
        if i < n {
          assert StatsLineFor(init[i], id);
        }
      }
      if exists i :: 0 <= i < n && StatsLineFor(init[i], id) {
        var i :| 0 <= i < n && StatsLineFor(init[i], id);
        assert StatsLineFor(lines[i], id);
      }
    }
  }

  /** A container's entry is the usage reported by the last three-field
      line that names it: a later line overwrites an earlier one. */
  lemma {:induction false} StatsTableLastWins(lines: seq<string>, id: string)
    requires id in StatsTable(lines)
    ensures exists i :: LastStatsLine(lines, id, i) && StatsTable(lines)[id] == StatsUsage(lines[i])
    decreases |lines|
  {
    var n := |lines| - 1;
    var init := lines[..n];
    var t := StatsTable(init);
    assert StatsTable(lines) == if IsStatsLine(lines[n]) then t[Split(lines[n], '|')[0] := StatsUsage(lines[n])] else t;
    if StatsLineFor(lines[n], id) {
      assert LastStatsLine(lines, id, n);
    } else {
      assert id in t;
      StatsTableLastWins(init, id);
      var i :| LastStatsLine(init, id, i) && t[id] == StatsUsage(init[i]);
      assert forall j :: i < j < n ==> lines[j] == init[j];
      assert LastStatsLine(lines, id, i);
    }
  }

  /** Reading one more line of stats output. */
  lemma StatsTableStep(lines: seq<string>, i: nat)
    requires i < |lines|
    ensures StatsTable(lines[..i + 1])
            == if IsStatsLine(lines[i]) then StatsTable(lines[..i])[Split(lines[i], '|')[0] := StatsUsage(lines[i])]
               else StatsTable(lines[..i])
  {
    assert lines[..i + 1][..i] == lines[..i];
  }

  /** The stats loop of `list_docker_items` and `search_items`: reads the
      stripped stats output line by line into a fresh dictionary. */
  method ParseStats(output: string) returns (stats: Stats)
    ensures stats == StatsTable(Lines(output))
  {
    var lines := Lines(output);
    stats := map[];
    var i := 0;
    while i < |lines|
      invariant 0 <= i <= |lines|
      invariant stats == StatsTable(lines[..i])
    {
      StatsTableStep(lines, i);
      var parts := Split(lines[i], '|');
      if |parts| == 3 {
        stats := stats[parts[0] := Usage(parts[1], parts[2])];
      }
      i := i + 1;
    }
    assert lines[..|lines|] == lines;
  }

  /** `get_docker_resource_stats`: the stats table, or an empty one when
      the stats command wrote to stderr. */
  method ResourceStats(exec: Executor) returns (stats: Stats)
    ensures Failed(exec(StatsCommand)) ==> stats == map[]
    ensures !Failed(exec(StatsCommand)) ==> stats == StatsTable(Lines(exec(StatsCommand).stdout))
  {
    var o := exec(StatsCommand);
    if Failed(o) {
      stats := map[];
    } else {
      stats := ParseStats(o.stdout);
    }
  }

  /** The stats a listing of kind `k` consults: only containers issue the
      stats command, and its stderr is not looked at. */
  function StatsFor(k: Kind, exec: Executor): Stats
  {
    if k == Container then StatsTable(Lines(exec(StatsCommand).stdout)) else map[]
  }

  // ---------------------------------------------------------------------
  // Rows
  // ---------------------------------------------------------------------

  /** The double quote that `strip('"')` removes from a command field. */
  predicate IsQuote(c: char)
  {
    c == '"'
  }

  /** The status column reads "Running". */
  predicate ShowsRunning(r: Row)
  {
    |r.columns| > 1 && r.columns[1] == "Running"
  }

  /** The row of one container: name, status, image, command, creation
      time, CPU, memory and size, in the tree's column order. */
  function ContainerRow(id: string, image: string, command: string, created: string,
                        status: string, name: string, stats: Stats, size: string): Row
  {
    var u := if id in stats then stats[id] else NoUsage;
    Row(id, Container,
        [name, if Contains(status, "Up") then "Running" else "Stopped",
         image, command, created, u.cpu, u.mem, size])
  }

  /** The row of one image, shown under its `repository:tag` name. */
  function ImageRow(repository: string, tag: string, id: string, created: string, size: string): Row
  {
    Row(id, Image, ["-", repository + ":" + tag, "-", created, "-", "-", size])
  }

  /** The row of one network. */
  function NetworkRow(id: string, name: string, driver: string, scope: string): Row
  {
    Row(id, Network, ["-", name, driver, scope, "-", "-", "-"])
  }

  /** The row of one project directory. */
  function ProjectRow(name: string): Row
  {
    Row(name, Project, ["-", "-", "-", "-", "-", "-", "-", "-"])
  }

  /** The row `list_docker_items` inserts for one non-empty line: none when
      the line has fewer fields than the template, otherwise a row built
      from the first fields, extra fields being ignored. The command field
      of a container loses its surrounding double quotes, and its size is
      asked of the runtime. */
  function ListRow(k: Kind, line: string, stats: Stats, exec: Executor): Option<Row>
  {
    var p := Split(line, '|');
    match k
    case Container =>
      if |p| < 6 then None
      else Some(ContainerRow(p[0], p[1], StripChars(p[2], IsQuote), p[3], p[4], p[5],
                             stats, ContainerSize(exec(SizeCommand(p[0])))))
    case Image =>
      if |p| < 5 then None else Some(ImageRow(p[0], p[1], p[2], p[3], p[4]))
    case Network =>
      if |p| < 4 then None else Some(NetworkRow(p[0], p[1], p[2], p[3]))
    case Project => None
  }

  /** The rows a listing yields, in the order of its lines; empty lines and
      lines with too few fields yield none. */
  function ListingRows(k: Kind, lines: seq<string>, stats: Stats, exec: Executor): seq<Row>
    decreases |lines|
  {
    if lines == [] then []
    else
      var row := if lines[0] == "" then None else ListRow(k, lines[0], stats, exec);
      (if row.Some? then [row.value] else []) + ListingRows(k, lines[1..], stats, exec)
  }

  /** Empty lines yield no rows. */
  lemma {:induction false} ListingRowsBlank(k: Kind, lines: seq<string>, stats: Stats, exec: Executor)
    requires forall i :: 0 <= i < |lines| ==> lines[i] == ""
    ensures ListingRows(k, lines, stats, exec) == []
    decreases |lines|
  {
    if lines != [] {
      ListingRowsBlank(k, lines[1..], stats, exec);
    }
  }

  /** What each line of a listing yields: nothing for an empty line,
      otherwise what the kind's parser makes of it. */
  function LineRows(k: Kind, lines: seq<string>, stats: Stats, exec: Executor): (opts: seq<Option<Row>>)
    ensures |opts| == |lines|
  {
    seq(|lines|, i requires 0 <= i < |lines| =>
      if lines[i] == "" then None else ListRow(k, lines[i], stats, exec))
  }

  /** The rows present in a sequence of optional rows, in order. */
  function Present(opts: seq<Option<Row>>): seq<Row>
    decreases |opts|
  {
    if opts == [] then []
    else (if opts[0].Some? then [opts[0].value] else []) + Present(opts[1..])
  }

  lemma {:induction false} PresentSnoc(opts: seq<Option<Row>>, o: Option<Row>)
    ensures Present(opts + [o]) == Present(opts) + (if o.Some? then [o.value] else [])
    decreases |opts|
  {
    if opts == [] {
      assert ([] + [o])[1..] == [];
    } else {
      assert (opts + [o])[0] == opts[0];
      assert (opts + [o])[1..] == opts[1..] + [o];
      PresentSnoc(opts[1..], o);
    }
  }

  /** The listing's rows are the rows its lines yield, one line at a time. */
  lemma {:induction false} ListingRowsPresent(k: Kind, lines: seq<string>, stats: Stats, exec: Executor)
    ensures ListingRows(k, lines, stats, exec) == Present(LineRows(k, lines, stats, exec))
    decreases |lines|
  {
    if lines != [] {
      ListingRowsPresent(k, lines[1..], stats, exec);
      var opts := LineRows(k, lines, stats, exec);
      assert opts[1..] == LineRows(k, lines[1..], stats, exec);
      assert Present(opts) == (if opts[0].Some? then [opts[0].value] else []) + Present(opts[1..]);
    }
  }

  /** The non-empty lines of a listing, in order. */
  function NonEmpty(lines: seq<string>): (r: seq<string>)
    ensures |r| <= |lines|
    ensures forall i :: 0 <= i < |r| ==> r[i] != ""
    decreases |lines|
  {
    if lines == [] then []
    else (if lines[0] == "" then [] else [lines[0]]) + NonEmpty(lines[1..])
  }

  /** A line gives a row exactly when it has at least as many fields as
      its kind's template (never, for projects, which are not listed). */
  lemma ShortLineNoRow(k: Kind, line: string, stats: Stats, exec: Executor)
    ensures ListRow(k, line, stats, exec).Some? <==> k != Project && |Split(line, '|')| >= Arity(k)
    ensures ListRow(k, line, stats, exec).Some? ==>
              ListRow(k, line, stats, exec).value.kind == k
              && ListRow(k, line, stats, exec).value.text == Split(line, '|')[IdField(k)]
  {
  }

  /** A container line with six or more fields gives the row of the first
      field's container; it shows "Running" exactly when the status field
      contains "Up", takes CPU and memory from the stats table or falls
      back to "N/A", and shows the command without its surrounding quotes. */
  lemma ContainerLineRow(line: string, stats: Stats, exec: Executor)
    requires |Split(line, '|')| >= 6
    ensures var p := Split(line, '|');
            var r := ListRow(Container, line, stats, exec).value;
            && |r.columns| == 8
            && (ShowsRunning(r) <==> Contains(p[4], "Up"))
            && r.columns[5] == (if p[0] in stats then stats[p[0]].cpu else NotAvailable)
            && r.columns[6] == (if p[0] in stats then stats[p[0]].mem else NotAvailable)
            && r.columns[3] == StripChars(p[2], IsQuote)
  {
    var p := Split(line, '|');
    var size := ContainerSize(exec(SizeCommand(p[0])));
    var r := ContainerRow(p[0], p[1], StripChars(p[2], IsQuote), p[3], p[4], p[5], stats, size);
    assert ListRow(Container, line, stats, exec).value == r;
    ContainerRowStatus(p[0], p[1], StripChars(p[2], IsQuote), p[3], p[4], p[5], stats, size);
  }

  /** The status column of a container row reads "Running" exactly when the
      status text contains "Up". */
  lemma ContainerRowStatus(id: string, image: string, command: string, created: string,
                           status: string, name: string, stats: Stats, size: string)
    ensures ShowsRunning(ContainerRow(id, image, command, created, status, name, stats, size))
            <==> Contains(status, "Up")
  {
    assert "Stopped"[0] != "Running"[0];
  }

  /** An image line with five or more fields is shown under the name
      `repository:tag`, from which both parts can be read back. */
  lemma ImageLineRow(line: string, stats: Stats, exec: Executor)
    requires |Split(line, '|')| >= 5
    ensures var p := Split(line, '|');
            var name := ListRow(Image, line, stats, exec).value.columns[1];
            && name == p[0] + ":" + p[1]
            && name[..|p[0]|] == p[0] && name[|p[0]|] == ':' && name[|p[0]| + 1..] == p[1]
  {
    var p := Split(line, '|');
    var name := p[0] + ":" + p[1];
    assert name[..|p[0]|] == p[0];
    assert name[|p[0]| + 1..] == p[1];
  }

  /** A network line with four or more fields shows its name, driver and
      scope fields in that order. */
  lemma NetworkLineRow(line: string, stats: Stats, exec: Executor)
    requires |Split(line, '|')| >= 4
    ensures ListRow(Network, line, stats, exec).value.columns[1..4] == Split(line, '|')[1..4]
  {
  }

  /** Every row of a listing is of the listed kind, so a listing never adds
      a project row. */
  lemma {:induction false} ListingRowsKind(k: Kind, lines: seq<string>, stats: Stats, exec: Executor)
    ensures forall i :: 0 <= i < |ListingRows(k, lines, stats, exec)| ==>
              ListingRows(k, lines, stats, exec)[i].kind == k
    ensures k == Project ==> ListingRows(k, lines, stats, exec) == []
    decreases |lines|
  {
    if lines != [] {
      ListingRowsKind(k, lines[1..], stats, exec);
    }
  }

  /** The identifier of a row comes from one field of one line, so it holds
      no newline when the lines hold none. */
  lemma {:induction false} ListingRowsNoNewline(k: Kind, lines: seq<string>, stats: Stats, exec: Executor)
    requires forall j :: 0 <= j < |lines| ==> '\n' !in lines[j]
    ensures forall i :: 0 <= i < |ListingRows(k, lines, stats, exec)| ==>
              '\n' !in ListingRows(k, lines, stats, exec)[i].text
    decreases |lines|
  {
    if lines != [] {
      ListingRowsNoNewline(k, lines[1..], stats, exec);
      var p := Split(lines[0], '|');
      if |p| > IdField(k) && '\n' in p[IdField(k)] {
        SplitFieldChars(lines[0], '|', IdField(k), '\n');
      }
    }
  }

  /** At most one row per non-empty line. */
  lemma {:induction false} ListingRowsBound(k: Kind, lines: seq<string>, stats: Stats, exec: Executor)
    ensures |ListingRows(k, lines, stats, exec)| <= |NonEmpty(lines)|
    decreases |lines|
  {
    if lines != [] {
      ListingRowsBound(k, lines[1..], stats, exec);
    }
  }

  /** Every non-empty line has at least its kind's number of fields. */
  predicate WellFormed(k: Kind, lines: seq<string>)
  {
    forall j :: 0 <= j < |lines| && lines[j] != "" ==> |Split(lines[j], '|')| >= Arity(k)
  }

  /** When every non-empty line has enough fields, the listing's rows are
      exactly one per non-empty line, in the order of the lines. */
  lemma {:induction false} ListingRowsFollowLines(k: Kind, lines: seq<string>, stats: Stats, exec: Executor)
    requires k != Project
    requires WellFormed(k, lines)
    ensures |ListingRows(k, lines, stats, exec)| == |NonEmpty(lines)|
    ensures forall i :: 0 <= i < |NonEmpty(lines)| ==>
              ListRow(k, NonEmpty(lines)[i], stats, exec) == Some(ListingRows(k, lines, stats, exec)[i])
    decreases |lines|
  {
    if lines != [] {
      assert WellFormed(k, lines[1..]) by {
        forall j | 0 <= j < |lines| - 1 && lines[1..][j] != ""
          ensures |Split(lines[1..][j], '|')| >= Arity(k)
        {
          assert lines[1..][j] == lines[j + 1];
        }
      }
      ListingRowsFollowLines(k, lines[1..], stats, exec);
      var rest := ListingRows(k, lines[1..], stats, exec);
      var ne := NonEmpty(lines[1..]);
      var all := ListingRows(k, lines, stats, exec);
      if lines[0] != "" {
        var row := ListRow(k, lines[0], stats, exec);
        assert |Split(lines[0], '|')| >= Arity(k);
        ShortLineNoRow(k, lines[0], stats, exec);
        assert all == [row.value] + rest;
        assert NonEmpty(lines) == [lines[0]] + ne;
        forall i | 0 <= i < |NonEmpty(lines)|
          ensures ListRow(k, NonEmpty(lines)[i], stats, exec) == Some(all[i])
        {
          if i > 0 {
            assert NonEmpty(lines)[i] == ne[i - 1] && all[i] == rest[i - 1];
          }
        }
      } else {
        assert all == rest;
        assert NonEmpty(lines) == ne;
      }
    }
  }
}

=== FILE: operations.dfy ===
/**
 * The multi-command actions on a selected container: `rebuild_container`
 * with its worker `rebuild_container_thread`, and `copy_container` with
 * its worker `copy_container_thread`. Each command goes through
 * `execute_command`, which shows the output and never stops the caller.
 */
module Operations {
  import opened Text
  import opened Runtime
  import opened Listing
  import opened Inventory

  /** One command given to `execute_command`, with what it answered. */
  datatype Step = Step(command: string, output: Output)

  /** How an action ended. */
  datatype Outcome =
    | NoSelection   // `selected_item` gave nothing
    | Cancelled     // the dialog was cancelled or left empty
    | BlankName     // the answer was only whitespace
    | NameConflict  // the new container name is already in use
    | Issued        // the worker ran its commands

  /** The commands of a transcript, in order. */
  function Commands(transcript: seq<Step>): (cmds: seq<string>)
    ensures |cmds| == |transcript|
    ensures forall i :: 0 <= i < |cmds| ==> cmds[i] == transcript[i].command
  {
    seq(|transcript|, i requires 0 <= i < |transcript| => transcript[i].command)
  }

  /** Runs every command in order through `execute_command`. An error
      answer is only shown, so every command is run whatever the earlier
      ones answered. */
  method RunAll(commands: seq<string>, exec: Executor) returns (transcript: seq<Step>)
    ensures |transcript| == |commands|
    ensures forall i :: 0 <= i < |commands| ==>
              transcript[i].command == commands[i] && transcript[i].output == exec(commands[i])
  {
    transcript := [];
    for i := 0 to |commands|
      invariant |transcript| == i
      invariant forall j :: 0 <= j < i ==>
                  transcript[j].command == commands[j] && transcript[j].output == exec(commands[j])
    {
      transcript := transcript + [Step(commands[i], exec(commands[i]))];
    }
  }

  /** The identifier `selected_item` hands to an action, or "" when it
      gives nothing. */
  function SelectedId(focused: Option<Row>): (id: string)
    ensures id != "" ==> focused.Some? && focused.value.text == id
    ensures id != "" <==> SelectedItem(focused).Some? && SelectedItem(focused).value.0 != ""
  {
    match SelectedItem(focused)
    case None => ""
    case Some(sel) => sel.0
  }

  /** `rebuild_container`: asks for an image name, then stops the container,
      removes it and runs a new container of that name from the image. The
      image name is passed on as typed; only an all-blank answer is
      refused. */
  method Rebuild(focused: Option<Row>, imageName: string, exec: Executor) returns (outcome: Outcome, transcript: seq<Step>)
    ensures outcome == Issued <==> SelectedId(focused) != "" && Strip(imageName) != ""
    ensures outcome == NoSelection <==> SelectedId(focused) == ""
    ensures outcome == Cancelled <==> SelectedId(focused) != "" && imageName == ""
    ensures outcome == BlankName <==> SelectedId(focused) != "" && imageName != "" && Strip(imageName) == ""
    ensures outcome != Issued ==> transcript == []
    ensures outcome == Issued ==>
              var id := SelectedId(focused);
              Commands(transcript) == ["docker stop " + id, "docker rm " + id,
                                       "docker run -d --name " + id + " " + imageName]
              && forall i :: 0 <= i < 3 ==> transcript[i].output == exec(transcript[i].command)
  {
    var id := SelectedId(focused);
    transcript := [];
    if id == "" {
      return NoSelection, [];
    }
    if imageName == "" {
      return Cancelled, [];
    }
    if Strip(imageName) == "" {
      return BlankName, [];
    }
    transcript := RebuildWorker(id, imageName, exec);
    outcome := Issued;
  }

  /** `rebuild_container_thread`: stop, remove, run again from the image. */
  method RebuildWorker(id: string, imageName: string, exec: Executor) returns (transcript: seq<Step>)
    ensures Commands(transcript) == ["docker stop " + id, "docker rm " + id,
                                     "docker run -d --name " + id + " " + imageName]
    ensures forall i :: 0 <= i < 3 ==> transcript[i].output == exec(transcript[i].command)
  {
    transcript := RunAll(["docker stop " + id, "docker rm " + id, "docker run -d --name " + id + " " + imageName], exec);
  }

  /** The container names in use: the names listing, stripped and split on
      newlines. */
  function ExistingNames(listing: Output): (names: seq<string>)
    ensures |names| >= 1
    ensures forall i :: 0 <= i < |names| ==> '\n' !in names[i]
  {
    Lines(listing.stdout)
  }

  /** The image a copy is committed to. */
  function BackupImage(id: string): (image: string)
    ensures |image| == |id| + 7 && image[..7] == "backup_" && image[7..] == id
  {
    "backup_" + id
  }

  /** `copy_container`: asks for a new name, refuses it when it is one of
      the names in use, and otherwise commits the container to its backup
      image and creates (without starting) a container of the new name from
      that image. The name is compared and passed on as typed; the names
      listing's stderr is not looked at. */
  method Copy(focused: Option<Row>, newName: string, exec: Executor) returns (outcome: Outcome, transcript: seq<Step>)
    ensures outcome == NoSelection <==> SelectedId(focused) == ""
    ensures outcome == Cancelled <==> SelectedId(focused) != "" && newName == ""
    ensures outcome == BlankName <==> SelectedId(focused) != "" && newName != "" && Strip(newName) == ""
    ensures outcome == NameConflict <==>
              SelectedId(focused) != "" && Strip(newName) != "" && newName in ExistingNames(exec(NamesCommand))
    ensures outcome == Issued <==>
              SelectedId(focused) != "" && Strip(newName) != "" && newName !in ExistingNames(exec(NamesCommand))
    ensures outcome != Issued ==> transcript == []
    ensures outcome == Issued ==>
              var id := SelectedId(focused);
              Commands(transcript) == ["docker commit " + id + " " + BackupImage(id),
                                       "docker create --name " + newName + " " + BackupImage(id)]
              && forall i :: 0 <= i < 2 ==> transcript[i].output == exec(transcript[i].command)
  {
    var id := SelectedId(focused);
    transcript := [];
    if id == "" {
      return NoSelection, [];
    }
    if newName == "" {
      return Cancelled, [];
    }
    if Strip(newName) == "" {
      return BlankName, [];
    }
    if newName in ExistingNames(exec(NamesCommand)) {
      return NameConflict, [];
    }
    transcript := CopyWorker(id, newName, exec);
    outcome := Issued;
  }

  /** `copy_container_thread`: commits the container to its backup image,
      then creates a container of the new name from that image. */
  method CopyWorker(id: string, newName: string, exec: Executor) returns (transcript: seq<Step>)
    ensures Commands(transcript) == ["docker commit " + id + " " + BackupImage(id),
                                     "docker create --name " + newName + " " + BackupImage(id)]
    ensures forall i :: 0 <= i < 2 ==> transcript[i].output == exec(transcript[i].command)
  {
    var image := BackupImage(id);
    transcript := RunAll(["docker commit " + id + " " + image, "docker create --name " + newName + " " + image], exec);
  }
}

=== FILE: runtime.dfy ===
/**
 * The boundary to the Docker command line: `run_docker_command` is an
 * executor that maps a command line to the text of its two output streams,
 * the fixed listing commands, and `get_container_size`.
 */
module Runtime {
  import opened Text

  /** What `run_docker_command` hands back: captured stdout and stderr. */
  datatype Output = Output(stdout: string, stderr: string)

  /** The external runtime, seen only through the outputs of the commands
      it is given. */
  type Executor = string -> Output

  /** A listing, a size query or `get_docker_resource_stats` counts as
      failed when it wrote anything to stderr; the exit code is only logged.
      The stats fetches inside the listing and the search and the names
      listing throw stderr away, and `execute_command` only shows it. */
  predicate Failed(o: Output)
  {
    o.stderr != ""
  }

  const ContainersCommand: string :=
    "docker ps -a --format \"{{.ID}}|{{.Image}}|{{.Command}}|{{.CreatedAt}}|{{.Status}}|{{.Names}}\""
  const ImagesCommand: string :=
    "docker images --format \"{{.Repository}}|{{.Tag}}|{{.ID}}|{{.CreatedSince}}|{{.Size}}\""
  const NetworksCommand: string :=
    "docker network ls --format \"{{.ID}}|{{.Name}}|{{.Driver}}|{{.Scope}}\""
  const StatsCommand: string :=
    "docker stats --no-stream --format \"{{.Container}}|{{.CPUPerc}}|{{.MemUsage}}\""
  const NamesCommand: string :=
    "docker ps -a --format \"{{.Names}}\""

  /** The per-container size query of `get_container_size`. */
  function SizeCommand(id: string): string
  {
    "docker ps -s -a --filter id=" + id + " --format '{{.Size}}'"
  }

  /** The placeholder shown for a value the runtime did not report. */
  const NotAvailable: string := "N/A"

  /** The lines of a listing: stdout stripped, then split on newlines. */
  function Lines(out: string): (lines: seq<string>)
    ensures |lines| >= 1
    ensures forall i :: 0 <= i < |lines| ==> '\n' !in lines[i]
  {
    Split(Strip(out), '\n')
  }

  /** `get_container_size`: the stripped answer of the size query, or the
      placeholder when the query wrote to stderr or answered only blanks. */
  function ContainerSize(o: Output): (size: string)
    ensures size != ""
    ensures Failed(o) ==> size == NotAvailable
    ensures !Failed(o) && Strip(o.stdout) != "" ==> size == Strip(o.stdout)
    ensures size == NotAvailable || (!Failed(o) && size == Strip(o.stdout))
    ensures !IsSpace(size[0]) && !IsSpace(size[|size| - 1])
  {
    if Failed(o) || Strip(o.stdout) == "" then NotAvailable else Strip(o.stdout)
  }

  // ---------------------------------------------------------------------
  // The error note of a failed listing
  // ---------------------------------------------------------------------

  /** A blank as `/bin/sh` reads one. */
  predicate IsBlank(c: char)
  {
    c == ' ' || c == '\t'
  }

  /** The command lines `/bin/sh` reads from a string handed to
      `run_docker_command`, which runs it with `shell=True`: each newline
      ends one command line. */
  function ShellLines(cmd: string): (lines: seq<string>)
    ensures |lines| >= 1
    ensures forall i :: 0 <= i < |lines| ==> '\n' !in lines[i]
  {
    Split(cmd, '\n')
  }

  /** A command line runs something unless it is blank or a `#` comment,
      which reaches to the end of the line. */
  predicate Runs(line: string)
  {
    var a := Lead(line, IsBlank);
    a < |line| && line[a] != '#'
  }

  /** The note that `list_docker_items` and each section of `search_items`
      pass to `execute_command` when a listing wrote to stderr, as the
      source builds it: a shell comment followed by the stderr text. */
  function ErrorReportAsWritten(noun: string, stderr: string): string
  {
    "# Error listing " + noun + "s: " + stderr
  }

  /** As written, every line of stderr after its first reaches the shell as
      a command line of its own. */
  lemma ErrorReportAsWrittenRunsStderr(noun: string, stderr: string)
    requires '\n' !in noun
    ensures ShellLines(ErrorReportAsWritten(noun, stderr))[1..] == ShellLines(stderr)[1..]
  {
    var head := "# Error listing " + noun + "s: ";
    assert '\n' !in head by {
      assert forall c :: c in head ==> c in noun || c in "# Error listing " || c in "s: ";
    }
    SplitPrepend(head, stderr, '\n');
  }

  /** A two-line stderr, such as `denied` then `docker rm -f web`, has its
      second line run as a command of its own. */
  lemma ErrorReportAsWrittenRunsSecondLine(noun: string, first: string, second: string)
    requires '\n' !in noun && '\n' !in first && '\n' !in second
    ensures var lines := ShellLines(ErrorReportAsWritten(noun, first + "\n" + second));
            |lines| == 2 && lines[1] == second
  {
    SplitPrepend(second, "", '\n');
    assert second + "" == second;
    assert Split("\n" + second, '\n') == [""] + Split(second, '\n');
    SplitPrepend(first, "\n" + second, '\n');
    assert first + "\n" + second == first + ("\n" + second);
    ErrorReportAsWrittenRunsStderr(noun, first + "\n" + second);
  }

  /** A listing that failed with `denied` and, on a second line,
      `docker rm -f web` has the shell remove the container `web`. */
  lemma ErrorReportAsWrittenExample()
    ensures var lines := ShellLines(ErrorReportAsWritten("container", "denied" + "\n" + "docker rm -f web"));
            |lines| == 2 && lines[1] == "docker rm -f web" && Runs(lines[1])
  {
    NoNewline("docker rm -f web");
    NoNewline("denied");
    NoNewline("container");
    ErrorReportAsWrittenRunsSecondLine("container", "denied", "docker rm -f web");
    assert Lead("docker rm -f web", IsBlank) == 0;
  }

  /** A string none of whose characters is a newline holds no newline. */
  lemma NoNewline(s: string)
    requires forall i :: 0 <= i < |s| ==> s[i] != '\n'
    ensures '\n' !in s
  {
  }

  /** `s` with every newline turned into a space. */
  function OneLine(s: string): (r: string)
    ensures |r| == |s| && '\n' !in r
    ensures forall i :: 0 <= i < |s| ==> r[i] == if s[i] == '\n' then ' ' else s[i]
  {
    seq(|s|, i requires 0 <= i < |s| => if s[i] == '\n' then ' ' else s[i])
  }

  /** The error note as intended: the stderr text is shown on the comment
      line, so the shell reads one line, a comment, and runs nothing. */
  function ErrorReport(noun: string, stderr: string): (note: string)
    requires '\n' !in noun
    ensures ShellLines(note) == [note]
    ensures !Runs(note)
  {
    var head := "# Error listing " + noun + "s: ";
    assert '\n' !in head by {
      assert forall c :: c in head ==> c in noun || c in "# Error listing " || c in "s: ";
    }
    var note := head + OneLine(stderr);
    SplitPrepend(note, "", '\n');
    assert note + "" == note;
    assert Lead(note, IsBlank) == 0;
    note
  }
}

=== FILE: search.dfy ===
/**
 * The filter of `search_items`: which lines of each listing a search shows,
 * and the unpacking error that ends a search early.
 */
module Search {
  import opened Text
  import opened DockerId
  import opened Runtime
  import opened Listing

  /** What a search pass inserted, and whether it stopped on a line that
      could not be unpacked (a `ValueError` that ends the worker thread). */
  datatype Scan = Scan(rows: seq<Row>, raised: bool)

  /** A line the search looks at: non-empty, and containing the lower-cased
      query once lower-cased itself. */
  predicate Matches(query: string, line: string)
  {
    line != "" && Contains(Lower(line), query)
  }

  /** A matching line with more fields than the tuple it is unpacked into. */
  predicate Raises(k: Kind, query: string, line: string)
  {
    Matches(query, line) && |Split(line, '|')| > Arity(k)
  }

  /** A matching line the search shows: exactly the template's fields, and
      an identifier that passes the identifier check. */
  predicate Kept(k: Kind, query: string, line: string)
  {
    var p := Split(line, '|');
    Matches(query, line) && |p| == Arity(k) && IdField(k) < |p| && ValidDockerId(p[IdField(k)])
  }

  /** On a line of a listing, which holds no newline, keeping a line with
      the source's identifier check (which lets a final newline through) is
      the same as keeping it with the intended check. */
  lemma KeptAgreesWithSource(k: Kind, query: string, line: string)
    requires '\n' !in line
    ensures var p := Split(line, '|');
            Kept(k, query, line)
            == (Matches(query, line) && |p| == Arity(k) && IdField(k) < |p|
                && ValidDockerIdAsWritten(p[IdField(k)]))
  {
    var p := Split(line, '|');
    if IdField(k) < |p| {
      if '\n' in p[IdField(k)] {
        SplitFieldChars(line, '|', IdField(k), '\n');
      }
      AsWrittenAgreesWithoutNewline(p[IdField(k)]);
    }
  }

  /** The row a search inserts for an unpacked line. Unlike a refresh, the
      search shows a container's command field as it is, quotes included. */
  function SearchRow(k: Kind, p: seq<string>, stats: Stats, exec: Executor): (r: Row)
    requires k != Project && |p| == Arity(k)
    ensures r.kind == k && r.text == p[IdField(k)]
  {
    match k
    case Container =>
      ContainerRow(p[0], p[1], p[2], p[3], p[4], p[5], stats, ContainerSize(exec(SizeCommand(p[0]))))
    case Image => ImageRow(p[0], p[1], p[2], p[3], p[4])
    case Network => NetworkRow(p[0], p[1], p[2], p[3])
  }

  /** The search loop over one listing's lines. */
  function SearchScan(k: Kind, query: string, lines: seq<string>, stats: Stats, exec: Executor): Scan
    requires k != Project
    decreases |lines|
  {
    if lines == [] then Scan([], false)
    else if Raises(k, query, lines[0]) then Scan([], true)
    else
      var rest := SearchScan(k, query, lines[1..], stats, exec);
      if Kept(k, query, lines[0]) then Scan([SearchRow(k, Split(lines[0], '|'), stats, exec)] + rest.rows, rest.raised)
      else rest
  }

  /** One section of `search_items`: nothing when the listing wrote to
      stderr, otherwise the scan of its lines (with the stats table for
      containers). */
  function Section(k: Kind, query: string, exec: Executor): Scan
    requires k != Project
  {
    var o := exec(ListCommand(k));
    if Failed(o) then Scan([], false)
    else SearchScan(k, query, Lines(o.stdout), StatsFor(k, exec), exec)
  }

  /** The project section: every directory entry whose lower-cased name
      contains the query, in directory order. */
  function ProjectMatches(query: string, dir: seq<DirEntry>): seq<Row>
    decreases |dir|
  {
    if dir == [] then []
    else
      (if ProjectMatch(query, dir[0]) then [ProjectRow(dir[0].name)] else [])
      + ProjectMatches(query, dir[1..])
  }

  /** A whole search: containers, images, networks and projects in turn,
      each section's rows after the previous ones; an unpacking error in a
      section ends the search there. */
  function SearchResult(query: string, exec: Executor, dir: seq<DirEntry>): Scan
  {
    var c := Section(Container, query, exec);
    if c.raised then c
    else
      var i := Section(Image, query, exec);
      if i.raised then Scan(c.rows + i.rows, true)
      else
        var n := Section(Network, query, exec);
        if n.raised then Scan(c.rows + i.rows + n.rows, true)
        else Scan(c.rows + i.rows + n.rows + ProjectMatches(query, dir), false)
  }

  /** What a section hands to `execute_command`: the error note of its
      listing when that wrote to stderr, and nothing otherwise. */
  function SectionReport(k: Kind, exec: Executor): (notes: seq<string>)
    requires k != Project
    ensures |notes| <= 1
    ensures notes != [] <==> Failed(exec(ListCommand(k)))
    ensures forall i :: 0 <= i < |notes| ==> ShellLines(notes[i]) == [notes[i]] && !Runs(notes[i])
  {
    var o := exec(ListCommand(k));
    if Failed(o) then [ErrorReport(KindName(k), o.stderr)] else []
  }

  /** The error notes of a search, section by section, up to the section
      whose unpacking error ended it. */
  function SearchReports(query: string, exec: Executor): seq<string>
  {
    var c := Section(Container, query, exec);
    SectionReport(Container, exec)
    + if c.raised then []
      else
        SectionReport(Image, exec)
        + if Section(Image, query, exec).raised then [] else SectionReport(Network, exec)
  }

  /** A search notes each failed listing it reached, at most one per
      section, and none of its notes runs a command. */
  lemma SearchReportsRunNothing(query: string, exec: Executor)
    ensures var notes := SearchReports(query, exec);
            && |notes| <= 3
            && (Failed(exec(ListCommand(Container))) ==> notes != [])
            && forall i :: 0 <= i < |notes| ==> ShellLines(notes[i]) == [notes[i]] && !Runs(notes[i])
  {
    var c := SectionReport(Container, exec);
    var im := SectionReport(Image, exec);
    var n := SectionReport(Network, exec);
    var notes := SearchReports(query, exec);
    assert forall i :: 0 <= i < |notes| ==> notes[i] in c + im + n;
  }

  /** What the search loop does with one line: stop on an unpacking
      error, show a row, or go on to the next line. */
  datatype Verdict = Skip | Show(row: Row) | Stop

  function Classify(k: Kind, query: string, line: string, stats: Stats, exec: Executor): Verdict
    requires k != Project
  {
    if Raises(k, query, line) then Stop
    else if Kept(k, query, line) then Show(SearchRow(k, Split(line, '|'), stats, exec))
    else Skip
  }

  /** The verdict on each line of a listing. */
  function Verdicts(k: Kind, query: string, lines: seq<string>, stats: Stats, exec: Executor): seq<Verdict>
    requires k != Project
  {
    seq(|lines|, i requires 0 <= i < |lines| => Classify(k, query, lines[i], stats, exec))
  }

  /** The scan a sequence of verdicts yields, from the front. */
  function ScanFrom(vs: seq<Verdict>): Scan
    decreases |vs|
  {
    if vs == [] then Scan([], false)
    else match vs[0]
      case Stop => Scan([], true)
      case Show(r) => var rest := ScanFrom(vs[1..]); Scan([r] + rest.rows, rest.raised)
      case Skip => ScanFrom(vs[1..])
  }

  /** One more verdict applied to a scan. */
  function Step(s: Scan, v: Verdict): Scan
  {
    if s.raised then s
    else match v
      case Stop => Scan(s.rows, true)
      case Show(r) => Scan(s.rows + [r], false)
      case Skip => s
  }

  /** A scan can be computed one verdict at a time, front to back. */
  lemma {:induction false} ScanFromSnoc(vs: seq<Verdict>, v: Verdict)
    ensures ScanFrom(vs + [v]) == Step(ScanFrom(vs), v)
    decreases |vs|
  {
    if vs == [] {
      assert [] + [v] == [v];
      assert [v][1..] == [];
    } else {
      assert (vs + [v])[0] == vs[0];
      assert (vs + [v])[1..] == vs[1..] + [v];
      ScanFromSnoc(vs[1..], v);
      match vs[0]
      case Stop =>
      case Skip =>
      case Show(r) =>
        var s := ScanFrom(vs[1..]);
        if !s.raised && v.Show? {
          assert [r] + (s.rows + [v.row]) == ([r] + s.rows) + [v.row];
        }
    }
  }

  /** A scan that has stopped ignores further verdicts. */
  lemma {:induction false} ScanFromStopped(a: seq<Verdict>, b: seq<Verdict>)
    requires ScanFrom(a).raised
    ensures ScanFrom(a + b) == ScanFrom(a)
    decreases |a|
  {
    assert (a + b)[0] == a[0];
    if !a[0].Stop? {
      assert (a + b)[1..] == a[1..] + b;
      ScanFromStopped(a[1..], b);
    }
  }

  /** The search loop is the scan of the lines' verdicts. */
  lemma {:induction false} SearchScanVerdicts(k: Kind, query: string, lines: seq<string>, stats: Stats, exec: Executor)
    requires k != Project
    ensures SearchScan(k, query, lines, stats, exec) == ScanFrom(Verdicts(k, query, lines, stats, exec))
    decreases |lines|
  {
    if lines != [] {
      var vs := Verdicts(k, query, lines, stats, exec);
      assert vs[1..] == Verdicts(k, query, lines[1..], stats, exec);
      assert vs[0] == Classify(k, query, lines[0], stats, exec);
      SearchScanVerdicts(k, query, lines[1..], stats, exec);
    }
  }

  /** The lines a scan keeps, in order. */
  function KeptLines(k: Kind, query: string, lines: seq<string>): seq<string>
    decreases |lines|
  {
    if lines == [] then []
    else (if Kept(k, query, lines[0]) then [lines[0]] else []) + KeptLines(k, query, lines[1..])
  }

  /** A scan stops on an unpacking error exactly when some line matches the
      query and has too many fields. */
  lemma {:induction false} SearchScanRaises(k: Kind, query: string, lines: seq<string>, stats: Stats, exec: Executor)
    requires k != Project
    ensures SearchScan(k, query, lines, stats, exec).raised <==>
            exists i :: 0 <= i < |lines| && Raises(k, query, lines[i])
    decreases |lines|
  {
    if lines != [] && !Raises(k, query, lines[0]) {
      SearchScanRaises(k, query, lines[1..], stats, exec);
      if exists i :: 0 <= i < |lines| && Raises(k, query, lines[i]) {
        var i :| 0 <= i < |lines| && Raises(k, query, lines[i]);
        assert Raises(k, query, lines[1..][i - 1]);
      }
      if exists i :: 0 <= i < |lines| - 1 && Raises(k, query, lines[1..][i]) {
        var i :| 0 <= i < |lines| - 1 && Raises(k, query, lines[1..][i]);
        assert Raises(k, query, lines[i + 1]);
      }
    }
  }

  /** Every line has exactly the fields of the kind's tuple. */
  predicate Unpacks(k: Kind, lines: seq<string>)
    decreases |lines|
  {
    lines == [] || (|Split(lines[0], '|')| == Arity(k) && Unpacks(k, lines[1..]))
  }

  /** The rows a search makes of the lines it keeps, in order. */
  function SearchRows(k: Kind, kept: seq<string>, stats: Stats, exec: Executor): (rows: seq<Row>)
    requires k != Project && Unpacks(k, kept)
    ensures |rows| == |kept|
    decreases |kept|
  {
    if kept == [] then []
    else [SearchRow(k, Split(kept[0], '|'), stats, exec)] + SearchRows(k, kept[1..], stats, exec)
  }

  /** The kept lines are exactly the lines that match the query, have the
      tuple's fields and a valid identifier. */
  lemma {:induction false} KeptLinesMembers(k: Kind, query: string, lines: seq<string>)
    ensures forall line :: line in KeptLines(k, query, lines) <==> line in lines && Kept(k, query, line)
    decreases |lines|
  {
    if lines != [] {
      KeptLinesMembers(k, query, lines[1..]);
      assert lines == [lines[0]] + lines[1..];
    }
  }

  /** A scan that ends without an unpacking error shows one row for each
      kept line, in line order. */
  lemma {:induction false} SearchScanKeeps(k: Kind, query: string, lines: seq<string>, stats: Stats, exec: Executor)
    requires k != Project
    requires !SearchScan(k, query, lines, stats, exec).raised
    ensures Unpacks(k, KeptLines(k, query, lines))
    ensures SearchScan(k, query, lines, stats, exec).rows == SearchRows(k, KeptLines(k, query, lines), stats, exec)
    decreases |lines|
  {
    if lines != [] {
      assert !Raises(k, query, lines[0]);
      SearchScanKeeps(k, query, lines[1..], stats, exec);
      var rest := SearchScan(k, query, lines[1..], stats, exec);
      var kept := KeptLines(k, query, lines);
      if Kept(k, query, lines[0]) {
        var row := SearchRow(k, Split(lines[0], '|'), stats, exec);
        assert SearchScan(k, query, lines, stats, exec).rows == [row] + rest.rows;
        assert kept == [lines[0]] + KeptLines(k, query, lines[1..]);
        assert SearchRows(k, kept, stats, exec) == [row] + SearchRows(k, kept[1..], stats, exec);
      } else {
        assert SearchScan(k, query, lines, stats, exec) == rest;
        assert kept == KeptLines(k, query, lines[1..]);
      }
    }
  }

  /** A scan that stops on an unpacking error keeps the rows of the lines
      before the first offending line and none after it. */
  lemma {:induction false} SearchScanStops(k: Kind, query: string, lines: seq<string>, stats: Stats, exec: Executor)
    requires k != Project
    requires SearchScan(k, query, lines, stats, exec).raised
    ensures exists i :: 0 <= i < |lines| && Raises(k, query, lines[i])
              && !SearchScan(k, query, lines[..i], stats, exec).raised
              && SearchScan(k, query, lines, stats, exec).rows == SearchScan(k, query, lines[..i], stats, exec).rows
    decreases |lines|
  {
    if Raises(k, query, lines[0]) {
      assert lines[..0] == [];
    } else {
      SearchScanStops(k, query, lines[1..], stats, exec);
      var i :| 0 <= i < |lines| - 1 && Raises(k, query, lines[1..][i])
                && !SearchScan(k, query, lines[1..][..i], stats, exec).raised
                && SearchScan(k, query, lines[1..], stats, exec).rows == SearchScan(k, query, lines[1..][..i], stats, exec).rows;
      assert lines[..i + 1][1..] == lines[1..][..i];
      assert lines[..i + 1][0] == lines[0];
      assert Raises(k, query, lines[i + 1]);
    }
  }

  /** Rows of kind `k`, each with a valid identifier. */
  predicate ValidRowsOf(k: Kind, rows: seq<Row>)
  {
    forall i :: 0 <= i < |rows| ==> rows[i].kind == k && ValidDockerId(rows[i].text)
  }

  /** Every row a scan shows is of the scanned kind and carries a valid
      identifier. */
  lemma {:induction false} SearchScanValidIds(k: Kind, query: string, lines: seq<string>, stats: Stats, exec: Executor)
    requires k != Project
    ensures ValidRowsOf(k, SearchScan(k, query, lines, stats, exec).rows)
    decreases |lines|
  {
    if lines != [] && !Raises(k, query, lines[0]) {
      var rest := SearchScan(k, query, lines[1..], stats, exec).rows;
      SearchScanValidIds(k, query, lines[1..], stats, exec);
      var all := SearchScan(k, query, lines, stats, exec).rows;
      if Kept(k, query, lines[0]) {
        var r := SearchRow(k, Split(lines[0], '|'), stats, exec);
        assert all == [r] + rest;
        forall i | 0 <= i < |all| ensures all[i].kind == k && ValidDockerId(all[i].text) {
          if i > 0 {
            assert all[i] == rest[i - 1];
          }
        }
      } else {
        assert all == rest;
      }
    }
  }

  /** A directory entry the project section shows. */
  predicate ProjectMatch(query: string, e: DirEntry)
  {
    e.isDir && Contains(Lower(e.name), query)
  }

  /** Each project row a search shows is the row of a directory whose
      lower-cased name contains the query. */
  lemma {:induction false} ProjectMatchesFrom(query: string, dir: seq<DirEntry>, i: nat)
    requires i < |ProjectMatches(query, dir)|
    ensures exists j :: 0 <= j < |dir| && ProjectMatch(query, dir[j])
                        && ProjectMatches(query, dir)[i] == ProjectRow(dir[j].name)
    decreases |dir|
  {
    var rest := ProjectMatches(query, dir[1..]);
    if ProjectMatch(query, dir[0]) {
      assert ProjectMatches(query, dir) == [ProjectRow(dir[0].name)] + rest;
      if i > 0 {
        ProjectMatchesFrom(query, dir[1..], i - 1);
        var j :| 0 <= j < |dir| - 1 && ProjectMatch(query, dir[1..][j]) && rest[i - 1] == ProjectRow(dir[1..][j].name);
        assert dir[j + 1] == dir[1..][j];
      }
    } else {
      assert ProjectMatches(query, dir) == rest;
      ProjectMatchesFrom(query, dir[1..], i);
      var j :| 0 <= j < |dir| - 1 && ProjectMatch(query, dir[1..][j]) && rest[i] == ProjectRow(dir[1..][j].name);
      assert dir[j + 1] == dir[1..][j];
    }
  }

  /** Every directory whose lower-cased name contains the query is shown. */
  lemma {:induction false} ProjectMatchesAll(query: string, dir: seq<DirEntry>, j: nat)
    requires j < |dir| && ProjectMatch(query, dir[j])
    ensures ProjectRow(dir[j].name) in ProjectMatches(query, dir)
    decreases |dir|
  {
    var rest := ProjectMatches(query, dir[1..]);
    var head := if ProjectMatch(query, dir[0]) then [ProjectRow(dir[0].name)] else [];
    assert ProjectMatches(query, dir) == head + rest;
    if j > 0 {
      assert dir[1..][j - 1] == dir[j];
      ProjectMatchesAll(query, dir[1..], j - 1);
    }
  }
}

=== FILE: text.dfy ===
/**
 * The Python string operations the listing code relies on: `str.strip()`,
 * `str.strip(chars)`, `str.split(sep)`, the `in` substring test and
 * `str.lower()`.
 */
module Text {

  /** The characters for which Python's `str.isspace()` holds; `str.strip()`
      with no argument removes exactly these from both ends. */
  predicate IsSpace(c: char)
  {
    || '\t' <= c <= '\r'
    || '\U{001C}' <= c <= ' '
    || c == '\U{0085}' || c == '\U{00A0}' || c == '\U{1680}'
    || '\U{2000}' <= c <= '\U{200A}'
    || c == '\U{2028}' || c == '\U{2029}' || c == '\U{202F}' || c == '\U{205F}' || c == '\U{3000}'
  }

  /** How many leading characters of `s` satisfy `drop`. */
  function Lead(s: string, drop: char -> bool): (n: nat)
    ensures n <= |s|
    ensures forall i :: 0 <= i < n ==> drop(s[i])
    ensures n < |s| ==> !drop(s[n])
    decreases |s|
  {
    if s != [] && drop(s[0]) then
      var n := 1 + Lead(s[1..], drop);
      assert forall i :: 1 <= i < n ==> s[i] == s[1..][i - 1];
      n
    else 0
  }

  /** Where the run of trailing characters of `s` that satisfy `drop`
      begins. */
  function Trail(s: string, drop: char -> bool): (n: nat)
    ensures n <= |s|
    ensures forall i :: n <= i < |s| ==> drop(s[i])
    ensures n > 0 ==> !drop(s[n - 1])
    decreases |s|
  {
    if s != [] && drop(s[|s| - 1]) then Trail(s[..|s| - 1], drop) else |s|
  }

  /** Python's `s.strip(chars)`, with `chars` given as the test `drop`: the
      one slice of `s` that is left once the leading and trailing
      characters in the set are removed. */
  function StripChars(s: string, drop: char -> bool): (r: string)
    ensures |r| <= |s|
    ensures r != [] ==> !drop(r[0]) && !drop(r[|r| - 1])
    ensures r == [] <==> forall i :: 0 <= i < |s| ==> drop(s[i])
    ensures var a := Lead(s, drop);
            && a + |r| <= |s| && r == s[a..a + |r|]
            && (forall i :: 0 <= i < a ==> drop(s[i]))
            && (forall i :: a + |r| <= i < |s| ==> drop(s[i]))
  {
    var a := Lead(s, drop);
    if a == |s| then []
    else
      var b := Trail(s, drop);
      assert a < b;
      s[a..b]
  }

  /** Python's `s.strip()`. */
  function Strip(s: string): string
  {
    StripChars(s, IsSpace)
  }

  /** Stripping twice removes nothing more than stripping once. */
  lemma StripIdempotent(s: string, drop: char -> bool)
    ensures StripChars(StripChars(s, drop), drop) == StripChars(s, drop)
  {
    var r := StripChars(s, drop);
    if r != [] {
      assert Lead(r, drop) == 0;
      assert Trail(r, drop) == |r|;
    }
  }

  /** Python's `s.split(d)` for a one-character separator: every occurrence
      of `d` separates two fields, empty fields are kept, and the empty
      string yields one empty field. */
  function Split(s: string, d: char): (r: seq<string>)
    ensures |r| >= 1
    ensures forall i :: 0 <= i < |r| ==> d !in r[i]
    decreases |s|
  {
    if s == [] then [""]
    else
      var rest := Split(s[1..], d);
      if s[0] == d then [""] + rest else [[s[0]] + rest[0]] + rest[1..]
  }

  /** Python's `d.join(parts)`. */
  function Join(parts: seq<string>, d: char): string
    decreases |parts|
  {
    if parts == [] then ""
    else if |parts| == 1 then parts[0]
    else parts[0] + [d] + Join(parts[1..], d)
  }

  /** Splitting loses nothing: joining the fields back gives the input. */
  lemma {:induction false} JoinSplit(s: string, d: char)
    ensures Join(Split(s, d), d) == s
    decreases |s|
  {
    if s != [] {
      var rest := Split(s[1..], d);
      JoinSplit(s[1..], d);
      if s[0] == d {
        assert Split(s, d) == [""] + rest;
      } else {
        if |rest| == 1 {
          assert Split(s, d) == [[s[0]] + rest[0]];
        } else {
          assert Split(s, d)[1..] == rest[1..];
        }
      }
    }
  }

  /** Joining fields that do not contain the separator and splitting again
      gives the fields back. */
  lemma {:induction false} SplitJoin(parts: seq<string>, d: char)
    requires |parts| >= 1
    requires forall i :: 0 <= i < |parts| ==> d !in parts[i]
    ensures Split(Join(parts, d), d) == parts
    decreases |parts|, |parts[0]|
  {
    if parts[0] == [] {
      if |parts| > 1 {
        SplitJoin(parts[1..], d);
        assert Join(parts, d) == [d] + Join(parts[1..], d);
        assert ([d] + Join(parts[1..], d))[1..] == Join(parts[1..], d);
        assert parts == [""] + parts[1..];
      }
    } else {
      var tail := [parts[0][1..]] + parts[1..];
      assert forall i :: 0 <= i < |tail| ==> d !in tail[i] by {
        forall i | 0 <= i < |tail| ensures d !in tail[i] {
          if i == 0 {
            assert forall c :: c in parts[0][1..] ==> c in parts[0];
          }
        }
      }
      SplitJoin(tail, d);
      assert parts[0][0] in parts[0];
      if |parts| == 1 {
        assert Join(parts, d) == parts[0];
        assert Join(tail, d) == parts[0][1..];
      } else {
        assert Join(tail, d) == parts[0][1..] + [d] + Join(parts[1..], d);
        assert Join(parts, d) == [parts[0][0]] + Join(tail, d);
      }
      assert [parts[0][0]] + parts[0][1..] == parts[0];
    }
  }

  /** Putting a separator-free prefix in front of a string only lengthens
      its first field. */
  lemma {:induction false} SplitPrepend(a: string, s: string, d: char)
    requires d !in a
    ensures Split(a + s, d) == [a + Split(s, d)[0]] + Split(s, d)[1..]
    decreases |a|
  {
    if a == [] {
      var r := Split(s, d);
      assert a + s == s && a + r[0] == r[0];
      assert r == [r[0]] + r[1..];
    } else {
      assert a[0] in a;
      assert (a + s)[1..] == a[1..] + s;
      assert forall c :: c in a[1..] ==> c in a;
      SplitPrepend(a[1..], s, d);
      assert [a[0]] + (a[1..] + Split(s, d)[0]) == a + Split(s, d)[0];
    }
  }

  /** Every character of a field is a character of the split string. */
  lemma {:induction false} SplitFieldChars(s: string, d: char, i: nat, c: char)
    requires i < |Split(s, d)| && c in Split(s, d)[i]
    ensures c in s
    decreases |s|
  {
    if s != [] {
      var rest := Split(s[1..], d);
      if s[0] == d {
        assert Split(s, d)[i] == rest[i - 1];
        SplitFieldChars(s[1..], d, i - 1, c);
      } else if i == 0 {
        if c != s[0] {
          assert c in rest[0];
          SplitFieldChars(s[1..], d, 0, c);
        }
      } else {
        assert Split(s, d)[i] == rest[i];
        SplitFieldChars(s[1..], d, i, c);
      }
    }
  }

  /** `p` is a prefix of `s`. */
  predicate StartsWith(s: string, p: string)
  {
    |p| <= |s| && s[..|p|] == p
  }

  /** Python's `sub in s`, scanning the start positions of `s` in turn. */
  predicate Contains(s: string, sub: string)
    decreases |s|
  {
    StartsWith(s, sub) || (s != [] && Contains(s[1..], sub))
  }

  /** `sub` occurs in `s` starting at position `i`. */
  predicate OccursAt(s: string, sub: string, i: int)
  {
    0 <= i <= |s| - |sub| && s[i..i + |sub|] == sub
  }

  /** The scan finds `sub` exactly when `sub` occurs at some position of `s`. */
  lemma {:induction false} ContainsAt(s: string, sub: string)
    ensures Contains(s, sub) <==> exists i :: OccursAt(s, sub, i)
    decreases |s|
  {
    if StartsWith(s, sub) {
      assert OccursAt(s, sub, 0);
    } else if s != [] {
      ContainsAt(s[1..], sub);
      if Contains(s[1..], sub) {
        var i :| OccursAt(s[1..], sub, i);
        assert s[1..][i..i + |sub|] == s[i + 1..i + 1 + |sub|];
        assert OccursAt(s, sub, i + 1);
      }
      if exists i :: OccursAt(s, sub, i) {
        var i :| OccursAt(s, sub, i);
        assert i != 0;
        assert s[1..][i - 1..i - 1 + |sub|] == s[i..i + |sub|];
        assert OccursAt(s[1..], sub, i - 1);
      }
    } else {
      assert forall i :: !OccursAt(s, sub, i);
    }
  }

  /** Python's `c.lower()` restricted to ASCII letters. */
  function LowerChar(c: char): char
  {
    if 'A' <= c <= 'Z' then (c as int + 32) as char else c
  }

  /** Python's `s.lower()` restricted to ASCII letters. */
  function Lower(s: string): (r: string)
    ensures |r| == |s|
    ensures forall i :: 0 <= i < |s| ==> r[i] == LowerChar(s[i])
  {
    seq(|s|, i requires 0 <= i < |s| => LowerChar(s[i]))
  }

  /** Lowering leaves no upper-case ASCII letter, so lowering twice is lowering once. */
  lemma LowerIdempotent(s: string)
    ensures forall i :: 0 <= i < |s| ==> !('A' <= Lower(s)[i] <= 'Z')
    ensures Lower(Lower(s)) == Lower(s)
  {
  }
}
